=== FILE: README.md ===
# Task scheduler and Kanban board — a Dafny model

This project models the scheduling and state engine of `parse_tasks.py`, a
single-file tool that keeps a table of project tasks, orders them by
dependency and priority, lays them out on a business-hours calendar, and
shows them on a Kanban board where each owner moves their own tasks between
the columns Pending, In Progress, Paused, Completed and Canceled.

The Dafny modules follow the parts of that file:

- `Tasks` (tasks.dfy): the task record, the five statuses (plus any other
  label a loaded row may carry), the priority ranks, and the task map. The
  map keeps its iteration order as `keys`, because that order is visible in
  the resolver and in the search for an owner's active task.
- `Resolver` (resolver.dfy): `topological_sort` (Kahn's algorithm that always
  picks the highest-priority ready task, the earliest one on a tie) and
  `order_tasks_for_owner`.
- `Allocator` (allocator.dfy): `allocate_schedule`, which spends each task's
  estimate in the 09–12 and 13–17 windows, starting today at 09:00. Times are
  whole hours counted from midnight of today.
- `Blocking` (blocking.dfy): `get_block_reasons` and `is_blocked`.
- `Progress` (progress.dfy): `calc_progress_all` with Python's
  round-half-to-even, and `owner_active_counts`.
- `Duration` (duration.dfy): the board timer's `fmt_hms`.
- `Codec` (codec.dfy): the `DependsOn` cell, a `|`-separated list split on
  load and joined on save.
- `Lifecycle` (lifecycle.dfy): `append_comment_log`, the timing and status
  part of `update_task_status`, and the board's rules. These are the
  `allowed` table of a drop, `move_task_to_status` with its owner, blocked
  and single-In-Progress guards, and the Pause / Complete / Cancel button
  checks. All are pure functions from a task map to an outcome: ignored,
  refused with a reason, or applied with the new map.

The wall clock, the comment the user types, and the selected task are
parameters. The time of day is `now` in whole seconds, and the log stamp is
opaque text.

Three points where the code's behaviour is easy to misread; the model
follows the code:

- Completed and Canceled tasks have no outgoing moves. The `allowed` table
  (`parse_tasks.py:677-683`) has no reopen move.
- `update_task_status` writes its timing side effects before it checks the
  status. An invalid status therefore raises after `ActualSeconds` and
  `InProgressStart` have changed (`parse_tasks.py:302-316`). `UpdateStatus`
  returns that half-updated task in its error.
- `enforce_single_in_progress` compares task records. Records of distinct
  tasks differ in `TaskID`, so the model compares ids.

Statuses are compared as text in the source. The model's `Status` type holds
only values `ParseStatus` can produce, so two statuses are equal exactly when
their texts are (`Tasks.LabelInjective`).

## Model

| member | source | states |
|---|---|---|
| Tasks.ParseStatus | parse_tasks.py:314-316 | a status text is accepted exactly when it is one of the five column names, and the parsed status writes back as the same text |
| Tasks.ParseLabelRoundTrip | parse_tasks.py:314-317 | a status written to the Status column reads back as the same status |
| Tasks.LabelInjective | parse_tasks.py:314-317 | two statuses are equal exactly when their column texts are |
| Tasks.PriorityRank | parse_tasks.py:135 | High ranks 1, Medium 2, Low 3, and any other priority falls back to 99, the lowest |
| Resolver.FindDangling | parse_tasks.py:123-126 | reports a reference to an undefined task exactly when some `DependsOn` entry names a task not in the map, and the report names a real such pair |
| Resolver.FindDanglingIsFirst | parse_tasks.py:123-126 | the reported pair is the first the loops meet: every earlier task in map order has all dependencies defined, and every earlier entry of the reported task's `DependsOn` names a task |
| Resolver.FirstMinRank | parse_tasks.py:135-136 | the chosen ready task has the lowest rank, and every earlier entry of the queue ranks strictly worse (the stable sort keeps queue order on ties) |
| Resolver.SeedAppend | parse_tasks.py:131 | the initial queue keeps map order: the seed of a concatenation is the concatenated seeds |
| Resolver.NewlyReadyAppend | parse_tasks.py:140-143 | tasks that become ready join the queue in map order: the list for a concatenation is the concatenated lists |
| Resolver.Kahn | parse_tasks.py:134-143 | the loop only appends to what was emitted, stops exactly on an empty queue, and next emits the first queued task of lowest rank |
| Resolver.KahnGreedy | parse_tasks.py:134-143 | every task the loop emits had the lowest rank among the tasks ready at that moment |
| Resolver.KahnExhausts | parse_tasks.py:134-143 | when the queue runs dry, no unemitted task has all its dependencies emitted |
| Resolver.RunOutcome | parse_tasks.py:145-147 | the length test fails exactly when some task was left over, and without dangling references the leftover tasks each wait on another leftover task |
| Resolver.TopologicalSort | parse_tasks.py:118-149 | fails on a dangling reference exactly when one exists; on success lists every task once, after its dependencies, choosing greedily by priority; on a cycle names exactly the tasks never emitted, a non-empty set where each waits on another |
| Resolver.CycleNamesAllStuckTasks | parse_tasks.py:145-147 | every set of tasks that wait on each other lies inside the reported unresolved set |
| Resolver.SortSucceedsIffOrderable | parse_tasks.py:118-149 | without dangling references, the sort succeeds exactly when a dependency-respecting order of all tasks exists |
| Resolver.IndependentTasksAllEmitted | parse_tasks.py:131-147 | when no task has dependencies the loop emits every task |
| Resolver.EmittedStartsWithSeedPick | parse_tasks.py:131-137 | the first task emitted is the first of lowest rank among the tasks without dependencies, in map order |
| Resolver.CompleteRunIsResult | parse_tasks.py:145-149 | without dangling references a run that emits every task is returned as the order |
| Resolver.TiesKeepMapOrder | parse_tasks.py:131-143 | in a map of exactly these two tasks, neither with dependencies, the better-ranked leaves first, and on equal rank the one earlier in the map; the general tie rule is `Kahn`'s pick with `SeedAppend` and `NewlyReadyAppend` |
| Resolver.MutualDependencyIsCycle | parse_tasks.py:145-147 | two tasks that depend on each other make the sort fail naming both |
| Resolver.OwnerIds | parse_tasks.py:151-152 | keeps exactly the ordered ids whose task is the owner's |
| Resolver.OwnerIdsAppend | parse_tasks.py:151-152 | filtering commutes with concatenation, so the filter keeps the resolver's relative order |
| Resolver.OrderForOwner | parse_tasks.py:151-152 | every returned task is the owner's, every task of the owner in the order is returned, and the list is the owner's ids from `OwnerIds` (each once, in resolver order) mapped to their tasks |
| Resolver.OwnerOrderRespectsDependencies | parse_tasks.py:151-152 | in the owner's list each task comes after each of its dependencies that the owner also holds |
| Allocator.NextOpening | parse_tasks.py:162-167 | from an idle hour the cursor jumps to the next workable hour, skipping no workable hour |
| Allocator.StepLength | parse_tasks.py:171-173 | one working step is positive, no longer than what remains, and stays inside the morning or afternoon window |
| Allocator.StepLengthStopsFirst | parse_tasks.py:171-173 | a step runs until the estimate is used up or lunch or close arrives, whichever comes first |
| Allocator.NextStep | parse_tasks.py:161-175 | the next step starts no earlier than the cursor and works at most the remaining hours |
| Allocator.NextStepInWindow | parse_tasks.py:161-175 | the next step lies in one window and no workable hour between the cursor and its start is skipped |
| Allocator.Consume | parse_tasks.py:158-177 | a task gets a start exactly when its estimate is positive, ends no earlier than the cursor, and its steps add up to the estimate |
| Allocator.ConsumeUsesEveryWorkingHour | parse_tasks.py:160-175 | between the cursor and the task's end there are exactly as many workable hours as the estimate |
| Allocator.ConsumeStepsInWindows | parse_tasks.py:161-175 | every working step lies inside 09–12 or 13–17 of a single day |
| Allocator.ConsumeStepsInOrder | parse_tasks.py:161-175 | the working steps run in time order between the cursor and the end |
| Allocator.ConsumeFramed | parse_tasks.py:169-177 | the scheduled start is the start of the first step and the scheduled end the end of the last |
| Allocator.Allocate | parse_tasks.py:157-177 | one placement per task, in order; a task gets a start exactly when its estimate is positive, and its steps add up to its estimate |
| Allocator.AllocateSchedule | parse_tasks.py:155-177 | the schedule starts today at 09:00 and spends exactly the sum of the estimates in workable hours |
| Allocator.AllocateStep | parse_tasks.py:157-177 | each task is placed from where the previous task left the cursor |
| Allocator.AllocatePlacesEachTask | parse_tasks.py:154-177 | each task spends exactly its estimate in workable hours after the previous end, starts (when it has work) no earlier than that end and before its own end |
| Allocator.AllocateUsesTotalEstimate | parse_tasks.py:154-177 | the whole schedule spends exactly the sum of the estimates in workable hours from today 09:00 |
| Allocator.AllocateCursorMoves | parse_tasks.py:157-177 | the cursor never moves backwards |
| Allocator.TenHourTaskSpansLunchAndNight | parse_tasks.py:154-177 | a ten-hour task works 09–12 and 13–17 today and 09–12 tomorrow, ending at 12:00 tomorrow |
| Blocking.GetBlockReasons | parse_tasks.py:183-191 | the dependencies named by the reasons are exactly the missing or unfinished ones, in `DependsOn` order |
| Blocking.ReasonsNameUnmetDeps | parse_tasks.py:183-191 | one reason per missing or unfinished dependency, in `DependsOn` order |
| Blocking.ReasonsDescribeDeps | parse_tasks.py:185-190 | a reason says "missing" exactly when the dependency is absent, and a waiting reason carries the dependency's title and owner |
| Blocking.ReasonsAppend | parse_tasks.py:183-191 | the reasons for a concatenated list are the concatenated reasons |
| Blocking.BlockedIffUnmetDependency | parse_tasks.py:193-194 | a task is blocked exactly when some dependency is missing or not Completed |
| Blocking.CompletedDependenciesUnblock | parse_tasks.py:193-194 | a task whose dependencies all exist and are Completed is not blocked |
| Blocking.Message | parse_tasks.py:187-190 | the dependency's id can be read back from the reason's text at a fixed offset |
| Progress.RoundHalfEven | parse_tasks.py:351 | the result is the nearest integer to the ratio, the even one on a tie |
| Progress.RoundHalfEvenUnique | parse_tasks.py:351 | the nearest-integer, ties-to-even answer is unique |
| Progress.HalvesGoToEven | parse_tasks.py:351 | 12.5 rounds to 12, 37.5 to 38, and 25 stays 25 |
| Progress.Relevant | parse_tasks.py:340-347 | a task is kept exactly when it passes both filters, and an empty filter passes everything |
| Progress.RelevantAppend | parse_tasks.py:341-347 | filtering a concatenation concatenates the filtered parts, so each in-scope task is kept once and in iteration order |
| Progress.RelevantExtremes | parse_tasks.py:341-347 | a list wholly in scope is kept whole, and one wholly out of scope gives no tasks |
| Progress.RelevantAgrees | parse_tasks.py:341-347 | two scopes that agree on every task of the list select the same tasks in the same order |
| Progress.CountCompleted | parse_tasks.py:350 | the count of Completed tasks is at most the number of tasks |
| Progress.CountCompletedExtremes | parse_tasks.py:350 | the count equals the number of tasks exactly when all are Completed, and is 0 exactly when none is |
| Progress.CountCompletedAppend | parse_tasks.py:350 | the count over a concatenation is the sum of the counts, so with `CountCompletedExtremes` each Completed task counts once |
| Progress.CalcProgress | parse_tasks.py:336-352 | an empty scope gives 0 and the percentage never exceeds 100 |
| Progress.ProgressIsNearestPercentage | parse_tasks.py:348-352 | the percentage is the nearest whole number to 100·completed/in-scope, ties to even; all Completed gives 100 and none gives 0 |
| Progress.FalsyFilterIsNoFilter | parse_tasks.py:342-345 | an empty-string project filter selects the same tasks and progress as no project filter, whatever the milestone filter, and the same for the milestone; with neither filter every task is selected |
| Progress.OwnerActiveCounts | parse_tasks.py:329-334 | the counts hold every listed owner and every owner of an active task, each with that owner's number of tasks neither Completed nor Canceled |
| Progress.TallyCounts | parse_tasks.py:331-333 | the loop adds each owner's number of active tasks to the starting counts |
| Duration.FmtHms | parse_tasks.py:589-594 | the text is `HH:MM:SS`, exactly eight characters below 100 hours, with colons before the last two fields |
| Duration.FmtHmsRoundTrip | parse_tasks.py:589-594 | reading the text back gives the clamped number of seconds: nothing is lost but the sign |
| Duration.FmtHmsFieldsInRange | parse_tasks.py:590-594 | the minutes and seconds fields are below 60 and the hours field is the whole hours |
| Codec.Split | parse_tasks.py:62 | splitting gives at least one field, and text without a separator is a single field |
| Codec.ParseDepends | parse_tasks.py:62 | an empty cell, and only an empty cell, loads as no dependencies |
| Codec.FormatDepends | parse_tasks.py:90 | no dependencies saves as an empty cell |
| Codec.SplitAround | parse_tasks.py:62 | a separator between two texts splits exactly there: the fields of each side, one after the other |
| Codec.JoinSplit | parse_tasks.py:62 | joining the split fields gives the text back |
| Codec.SplitJoin | parse_tasks.py:90 | splitting joined fields gives them back when no field holds the separator |
| Codec.CellRoundTrip | parse_tasks.py:90 | a loaded cell saves back as the same text |
| Codec.ListRoundTrip | parse_tasks.py:62 | a dependency list survives saving and loading exactly when it is not the single empty id |
| Lifecycle.AppendCommentLog | parse_tasks.py:280-288 | sets the log, the last comment and the last-updated stamp and changes nothing else |
| Lifecycle.AppendAddsEntryLines | parse_tasks.py:282-286 | the log gains the lines of the new entry after all earlier lines; a multi-line comment adds several |
| Lifecycle.AppendAddsOneLine | parse_tasks.py:282-286 | when the entry holds no line break, the log gains exactly one line, the new entry, after all earlier lines |
| Lifecycle.Timed | parse_tasks.py:298-312 | banked time never decreases and only the two clock fields change |
| Lifecycle.UpdateStatus | parse_tasks.py:290-321 | succeeds exactly on one of the five statuses, then with that status and with the log grown by the lines of the entry labelled with the caller's action or `Status -> <status>`; on failure the status is unchanged |
| Lifecycle.UpdateStatusTiming | parse_tasks.py:302-312 | leaving In Progress banks the non-negative session length and clears the start; entering sets the start only when none is recorded; otherwise the clock is untouched, on both the normal and the raising path |
| Lifecycle.SessionRoundTrip | parse_tasks.py:302-312 | a session opened at `start` and closed at `stop` banks exactly `max(0, stop - start)` seconds |
| Lifecycle.UpdateKeepsSessionConsistent | parse_tasks.py:302-312 | a start is stored exactly while In Progress, before and after a valid update |
| Lifecycle.Allowed | parse_tasks.py:677-683 | every move in the table goes between two of the five statuses and changes the status |
| Lifecycle.AllowedTable | parse_tasks.py:677-683 | Completed and Canceled have no moves, and every allowed move changes the status and never goes back to Pending |
| Lifecycle.FirstInProgressAt | parse_tasks.py:546-548 | the position of the owner's first In Progress task in map order, none exactly when there is none |
| Lifecycle.FirstInProgress | parse_tasks.py:546-548 | finds the owner's In Progress task exactly when one exists, and it is the first in map order |
| Lifecycle.OtherInProgress | parse_tasks.py:615-620 | reports only another of the owner's In Progress tasks, and, for a task not itself In Progress, reports one exactly when one exists |
| Lifecycle.MoveGuard | parse_tasks.py:622-634 | a refusal names the owner exactly when the owner differs; blocked and busy refusals arise only when starting, carry the non-empty reasons or the other active task; the guard refuses only for the owner, a block or a busy owner |
| Lifecycle.MoveLabel | parse_tasks.py:635-636 | the caller's label when one is given, else a non-empty `Move -> <status>` label |
| Lifecycle.MoveTaskToStatus | parse_tasks.py:628-639 | applies the update exactly when no guard refuses, and otherwise is refused with the guard's own reason (owner, block reasons or the active task) |
| Lifecycle.MoveGuardExact | parse_tasks.py:615-634 | the guards pass exactly when the owner matches and, when starting, the task is unblocked and the owner has no other task In Progress |
| Lifecycle.Transition | parse_tasks.py:663-687 | a drop is ignored exactly on an unknown task or its own column; a drop on a known task's other column is refused as an illegal move naming both statuses exactly when the move is not in the table; any other refusal is the move guard's reason; an applied drop is in the table and the task is the owner's |
| Lifecycle.Press | parse_tasks.py:708-730 | a press is ignored exactly on an unknown task; it is refused as not applicable, naming the button, exactly when the button does not apply to the task's status; any other refusal is the move guard's reason; an applied press had a button that applies to the status and a task of the owner |
| Lifecycle.TransitionAppliedExactly | parse_tasks.py:663-689 | a drop changes the map exactly when the move is in the table, the task is the owner's, and a start is unblocked with the owner idle; it is ignored exactly on an unknown task or its own column |
| Lifecycle.TerminalStatusesStay | parse_tasks.py:681-682 | no drop and no button ever moves a Completed or Canceled task |
| Lifecycle.PressAppliedExactly | parse_tasks.py:708-730 | a button changes the map exactly when it applies to the task's status and the task is the owner's |
| Lifecycle.MoveChangesOnlyTheTask | parse_tasks.py:628-639 | an applied move changes only the moved task, which gets the target status, the comment and the stamp, keeps its record, and whose log gains the lines of the entry with the move's label |
| Lifecycle.MovePreservesInvariants | parse_tasks.py:615-639 | a move keeps at most one In Progress task per owner and keeps session starts consistent |
| Lifecycle.BoardPreservesInvariants | parse_tasks.py:663-730 | drops and button presses keep both board invariants |

## Left out

- The Tk window, message boxes, the comment prompt, drag tracking and the
  timers. The prompt's answer and the chosen column are parameters.
- Reading and writing the CSV with pandas (`load_all_tasks`,
  `tasks_to_dataframe`, `save_all_tasks_to_csv`). That includes the missing
  Status cell that loads as Pending: statuses are modelled from their text
  (`Tasks.ParseStatus`).
- The wall clock and ISO timestamp parsing. A stored session start is
  either whole seconds or text that does not parse (`Tasks.Instant`).
- Sub-second precision of elapsed time, and the `ActualHours` column.
  `ActualHours` is `ActualSeconds / 3600` rounded in floating point.
- Allocator.Consume: estimates are whole, non-negative hours. Fractional
  estimates are floats in the source, and negative ones are not modelled.
- Progress.CalcProgress: rounds the exact ratio, whereas the source rounds
  the float `(completed / total) * 100`. The two can differ: with 23 of 40
  completed, the float product is 57.49999… and rounds to 57, while the
  exact 57.5 rounds to 58.
- Progress.ProgressIsNearestPercentage: states the exact rounding of
  `Progress.CalcProgress`, so it shares the float difference above.
- Which task a button acts on (`current_selection_from_any_list`), list
  filling and visibility (`populate_lists`, `is_task_visible`): the selected
  task id is a parameter.
- Reassigning a task (`do_reassign`), the project and milestone pickers,
  and the other scripts of the repository.
- Lifecycle.Transition: the column a drag started from is taken to be the
  task's status. Only the target-equals-source and `allowed` tests are
  modelled.

=== FILE: allocator.dfy ===
/**
 * Business-hours allocator: `allocate_schedule`.
 *
 * A time is a whole number of hours since midnight of the day the schedule
 * is drawn up ("today"): its day is `t / 24` and its hour `t % 24`. With
 * whole-hour estimates the cursor only ever lands on whole hours, so the
 * source's hour-only tests are exact here.
 */
module Allocator {
  import opened Wrappers
  import opened Tasks

  const WorkStartHour: nat := 9
  const WorkEndHour: nat := 17
  const LunchStartHour: nat := 12
  const LunchEndHour: nat := 13

  /** Midnight of the day containing `t`. */
  function Midnight(t: nat): nat {
    t - t % 24
  }

  /** The hour starting at `t` is workable: inside 09–12 or 13–17. */
  predicate IsWorkingHour(t: nat) {
    var h := t % 24;
    (WorkStartHour <= h < LunchStartHour) || (LunchEndHour <= h < WorkEndHour)
  }

  /** An uninterrupted stretch of work, `from` inclusive to `to` exclusive. */
  datatype Span = Span(from: nat, to: nat)

  /** A productive step: non-empty and inside the morning or the afternoon window of one day. */
  predicate InWindow(sp: Span) {
    var m := Midnight(sp.from);
    && sp.from < sp.to
    && ((m + WorkStartHour <= sp.from && sp.to <= m + LunchStartHour)
        || (m + LunchEndHour <= sp.from && sp.to <= m + WorkEndHour))
  }

  /** Where one task landed: `ScheduledStart` (None when nothing was consumed), `ScheduledEnd`, and the productive steps in between. */
  datatype Placement = Placement(start: Option<nat>, end: nat, steps: seq<Span>)

  function Hours(steps: seq<Span>): nat {
    if |steps| == 0 then 0
    else (if steps[0].from <= steps[0].to then steps[0].to - steps[0].from else 0) + Hours(steps[1..])
  }

  /** Every step lies inside one window. */
  predicate AllInWindows(steps: seq<Span>)
    decreases |steps|
  {
    |steps| == 0 || (InWindow(steps[0]) && AllInWindows(steps[1..]))
  }

  /** Pointwise reading of `AllInWindows`. */
  lemma {:induction false} AllInWindowsPointwise(steps: seq<Span>, i: nat)
    requires AllInWindows(steps) && i < |steps|
    ensures InWindow(steps[i])
    decreases i
  {
    if i > 0 {
      AllInWindowsPointwise(steps[1..], i - 1);
    }
  }

  /**
   * The steps are in time order: the first starts no earlier than `from`,
   * each starts no earlier than the one before it ended, and the last ends
   * no later than `to`.
   */
  predicate Chronological(steps: seq<Span>, from: nat, to: nat)
    decreases |steps|
  {
    if |steps| == 0 then from <= to
    else from <= steps[0].from <= steps[0].to && Chronological(steps[1..], steps[0].to, to)
  }

  /** Number of workable hours in [a, b). */
  function WorkingHours(a: nat, b: nat): nat
    decreases b
  {
    if b <= a then 0
    else WorkingHours(a, b - 1) + (if IsWorkingHour(b - 1) then 1 else 0)
  }

  lemma ModShift(t: nat, k: nat)
    requires t % 24 + k < 24
    ensures (t + k) % 24 == t % 24 + k
    ensures Midnight(t + k) == Midnight(t)
  {
    var q := t / 24;
    assert t == 24 * q + t % 24;
    assert t + k == 24 * q + (t % 24 + k);
  }

  lemma {:induction false} WorkingSplit(a: nat, b: nat, c: nat)
    requires a <= b <= c
    ensures WorkingHours(a, c) == WorkingHours(a, b) + WorkingHours(b, c)
    decreases c
  {
    if c > b {
      WorkingSplit(a, b, c - 1);
    }
  }

  /** Inside one window every hour is workable. */
  lemma {:induction false} WindowAllWorking(sp: Span)
    requires InWindow(sp)
    ensures WorkingHours(sp.from, sp.to) == sp.to - sp.from
    decreases sp.to
  {
    var t := sp.to - 1;
    ModShift(sp.from, t - sp.from);
    if sp.to - 1 > sp.from {
      WindowAllWorking(Span(sp.from, sp.to - 1));
    }
  }

  /** Between `t` and `u` on one day, when neither end reaches into a window, no hour is workable. */
  lemma {:induction false} IdleStretch(t: nat, u: nat)
    requires t <= u
    requires forall x :: t <= x < u ==> !IsWorkingHour(x)
    ensures WorkingHours(t, u) == 0
    decreases u
  {
    if u > t {
      IdleStretch(t, u - 1);
    }
  }

  /**
   * Where the cursor moves when its hour is not workable: before 09:00 to
   * 09:00, inside lunch to 13:00, at or after 17:00 to 09:00 the next day.
   */
  function NextOpening(t: nat): (u: nat)
    requires !IsWorkingHour(t)
    ensures t < u && IsWorkingHour(u)
    ensures WorkingHours(t, u) == 0
  {
    var h := t % 24;
    if h < WorkStartHour then
      MorningIdle(t);
      Midnight(t) + WorkStartHour
    else if LunchStartHour <= h < LunchEndHour then
      LunchIdle(t);
      Midnight(t) + LunchEndHour
    else
      EveningIdle(t);
      Midnight(t) + 24 + WorkStartHour
  }

  /** Midnight is a whole number of days, and `t` lies `t % 24` hours after it. */
  lemma DayStart(t: nat)
    ensures Midnight(t) % 24 == 0 && t == Midnight(t) + t % 24
  {
    var q := t / 24;
    assert t == 24 * q + t % 24;
    assert Midnight(t) == 24 * q;
  }

  /** `k` hours after a midnight is hour `k` of that day. */
  lemma HourAfter(m: nat, k: nat)
    requires m % 24 == 0 && k < 24
    ensures (m + k) % 24 == k && Midnight(m + k) == m
  {
    ModShift(m, k);
  }

  /** Before 09:00, the day's first workable hour is 09:00 and none comes before it. */
  lemma MorningIdle(t: nat)
    requires t % 24 < WorkStartHour
    ensures var u := Midnight(t) + WorkStartHour;
            t < u && IsWorkingHour(u) && WorkingHours(t, u) == 0
  {
    var m := Midnight(t);
    DayStart(t);
    HourAfter(m, WorkStartHour);
    forall x | t <= x < m + WorkStartHour
      ensures !IsWorkingHour(x)
    {
      HourAfter(m, x - m);
    }
    IdleStretch(t, m + WorkStartHour);
  }

  /** During lunch, the next workable hour is 13:00, one hour later. */
  lemma LunchIdle(t: nat)
    requires LunchStartHour <= t % 24 < LunchEndHour
    ensures var u := Midnight(t) + LunchEndHour;
            t < u && IsWorkingHour(u) && WorkingHours(t, u) == 0
  {
    var m := Midnight(t);
    DayStart(t);
    HourAfter(m, LunchEndHour);
    IdleStretch(t, t + 1);
  }

  /** From 17:00 on, the next workable hour is 09:00 the next day. */
  lemma EveningIdle(t: nat)
    requires t % 24 >= WorkEndHour
    ensures var u := Midnight(t) + 24 + WorkStartHour;
            t < u && IsWorkingHour(u) && WorkingHours(t, u) == 0
  {
    var m := Midnight(t);
    DayStart(t);
    HourAfter(m + 24, WorkStartHour);
    forall x | t <= x < m + 24 + WorkStartHour
      ensures !IsWorkingHour(x)
    {
      if x < m + 24 {
        HourAfter(m, x - m);
      } else {
        HourAfter(m + 24, x - (m + 24));
      }
    }
    IdleStretch(t, m + 24 + WorkStartHour);
  }

  /** The hours worked in one step of the loop, from a workable hour `t`. */
  function StepLength(t: nat, remaining: nat): (len: nat)
    requires IsWorkingHour(t) && remaining > 0
    ensures 0 < len <= remaining
    ensures InWindow(Span(t, t + len))
  {
    var h := t % 24;
    var upToClose := if remaining < WorkEndHour - h then remaining else WorkEndHour - h;
    if h < LunchStartHour && h + upToClose > LunchStartHour then LunchStartHour - h else upToClose
  }

  /** A step runs until the estimate is used up or lunch or close arrives, whichever comes first. */
  lemma StepLengthStopsFirst(t: nat, remaining: nat)
    requires IsWorkingHour(t) && remaining > 0
    ensures var h := t % 24;
            var close := if h < LunchStartHour then LunchStartHour else WorkEndHour;
            StepLength(t, remaining) == if remaining <= close - h then remaining else close - h
  {
  }

  /**
   * The next productive step from cursor `t`: a cursor on an unworkable hour
   * first moves to the next opening, then works until the estimate, lunch or
   * close of business, whichever comes first.
   */
  function NextStep(t: nat, remaining: nat): (sp: Span)
    requires remaining > 0
    ensures t <= sp.from < sp.to && sp.to - sp.from <= remaining
    decreases if IsWorkingHour(t) then 0 else 1
  {
    if IsWorkingHour(t) then Span(t, t + StepLength(t, remaining))
    else NextStep(NextOpening(t), remaining)
  }

  /** The step lies in one window, and no workable hour is skipped to reach it. */
  lemma {:induction false} NextStepInWindow(t: nat, remaining: nat)
    requires remaining > 0
    ensures InWindow(NextStep(t, remaining))
    ensures WorkingHours(t, NextStep(t, remaining).from) == 0
    decreases if IsWorkingHour(t) then 0 else 1
  {
    if !IsWorkingHour(t) {
      var u := NextOpening(t);
      NextStepInWindow(u, remaining);
      WorkingSplit(t, u, NextStep(u, remaining).from);
    }
  }

  /**
   * One task's inner `while hours_remaining > 0` loop, from cursor `t`. The
   * start is the cursor at the first productive step; the end is the cursor
   * once the estimate is used up.
   */
  function Consume(t: nat, remaining: nat): (p: Placement)
    ensures remaining == 0 <==> p.start.None?
    ensures t <= p.end
    ensures Hours(p.steps) == remaining
    decreases remaining
  {
    if remaining == 0 then Placement(None, t, [])
    else
      var sp := NextStep(t, remaining);
      var rest := Consume(sp.to, remaining - (sp.to - sp.from));
      var steps := [sp] + rest.steps;
      assert steps[1..] == rest.steps;
      Placement(Some(sp.from), rest.end, steps)
  }

  /** The estimate is used up in exactly as many workable hours: no workable hour between cursor and end goes unused. */
  lemma {:induction false} ConsumeUsesEveryWorkingHour(t: nat, remaining: nat)
    ensures WorkingHours(t, Consume(t, remaining).end) == remaining
    decreases remaining
  {
    if remaining > 0 {
      var sp := NextStep(t, remaining);
      var rest := remaining - (sp.to - sp.from);
      var e := Consume(sp.to, rest).end;
      ConsumeUsesEveryWorkingHour(sp.to, rest);
      ConsumeStep(t, remaining, sp, rest);
      StepWorkingHours(t, remaining, sp);
      WorkingSplit(t, sp.to, e);
    } else {
      ConsumeNothing(t);
    }
  }

  /** Up to the end of the next step, the workable hours are exactly the step's. */
  lemma StepWorkingHours(t: nat, remaining: nat, sp: Span)
    requires remaining > 0 && sp == NextStep(t, remaining)
    ensures WorkingHours(t, sp.to) == sp.to - sp.from
  {
    NextStepInWindow(t, remaining);
    WindowAllWorking(sp);
    WorkingSplit(t, sp.from, sp.to);
  }

  /** Every productive step lies inside the morning or the afternoon window of one day. */
  lemma {:induction false} ConsumeStepsInWindows(t: nat, remaining: nat)
    ensures AllInWindows(Consume(t, remaining).steps)
    decreases remaining
  {
    if remaining > 0 {
      var sp := NextStep(t, remaining);
      var rest := Consume(sp.to, remaining - (sp.to - sp.from));
      ConsumeStepsInWindows(sp.to, remaining - (sp.to - sp.from));
      NextStepInWindow(t, remaining);
      assert ([sp] + rest.steps)[1..] == rest.steps;
    }
  }

  /** The steps run in time order, between the cursor and the end. */
  lemma {:induction false} ConsumeStepsInOrder(t: nat, remaining: nat)
    ensures var p := Consume(t, remaining);
            Chronological(p.steps, t, p.end)
    decreases remaining
  {
    if remaining > 0 {
      var sp := NextStep(t, remaining);
      var rest := Consume(sp.to, remaining - (sp.to - sp.from));
      ConsumeStepsInOrder(sp.to, remaining - (sp.to - sp.from));
      ChronologicalCons(sp, rest.steps, t, sp.to, rest.end);
    }
  }

  /** An ordered run stays ordered within any wider interval. */
  lemma ChronologicalWeaken(steps: seq<Span>, from: nat, mid: nat, to: nat)
    requires from <= mid
    requires Chronological(steps, mid, to)
    ensures Chronological(steps, from, to)
  {
  }

  /** A step placed before an ordered run keeps the run in order. */
  lemma ChronologicalCons(head: Span, rest: seq<Span>, from: nat, mid: nat, to: nat)
    requires from <= head.from <= head.to <= mid
    requires Chronological(rest, mid, to)
    ensures Chronological([head] + rest, from, to)
  {
    assert ([head] + rest)[1..] == rest;
    ChronologicalWeaken(rest, head.to, mid, to);
  }

  /** With no hours to spend the loop does not run: no start, no steps, and the cursor stays. */
  lemma ConsumeNothing(t: nat)
    ensures Consume(t, 0) == Placement(None, t, [])
  {
  }

  /** One turn of the inner loop: the first step, then the rest of the estimate from where it ended. */
  lemma ConsumeStep(t: nat, remaining: nat, sp: Span, rest: nat)
    requires remaining > 0 && sp == NextStep(t, remaining) && rest == remaining - (sp.to - sp.from)
    ensures Consume(t, remaining).start == Some(sp.from)
    ensures Consume(t, remaining).end == Consume(sp.to, rest).end
    ensures Consume(t, remaining).steps == [sp] + Consume(sp.to, rest).steps
  {
  }

  /** The task starts with its first productive step and ends with its last. */
  lemma {:induction false} ConsumeFramed(t: nat, remaining: nat)
    ensures var p := Consume(t, remaining);
            p.start.Some? ==> && |p.steps| > 0
                              && p.steps[0].from == p.start.value
                              && p.steps[|p.steps| - 1].to == p.end
    decreases remaining
  {
    if remaining > 0 {
      var sp := NextStep(t, remaining);
      var rest := remaining - (sp.to - sp.from);
      ConsumeFramed(sp.to, rest);
      ConsumeStep(t, remaining, sp, rest);
      if rest == 0 {
        ConsumeNothing(sp.to);
      }
      FramedCons(sp, Consume(sp.to, rest), Consume(t, remaining));
    }
  }

  /** A step put in front of a framed placement (or of an empty one ending where the step ends) gives a framed placement. */
  lemma FramedCons(sp: Span, r: Placement, p: Placement)
    requires p == Placement(Some(sp.from), r.end, [sp] + r.steps)
    requires r.start.None? ==> r.steps == [] && r.end == sp.to
    requires r.start.Some? ==> |r.steps| > 0 && r.steps[|r.steps| - 1].to == r.end
    ensures |p.steps| > 0 && p.steps[0].from == p.start.value && p.steps[|p.steps| - 1].to == p.end
  {
    if r.start.Some? {
      assert p.steps[|p.steps| - 1] == r.steps[|r.steps| - 1];
    }
  }

  /**
   * `allocate_schedule` from cursor `cursor`: tasks are placed one after
   * another in list order, each starting where the previous one ended.
   */
  function Allocate(cursor: nat, ts: seq<Task>): (ps: seq<Placement>)
    ensures |ps| == |ts|
    ensures forall i :: 0 <= i < |ps| ==> (ps[i].start.Some? <==> ts[i].estimatedHours > 0)
    ensures forall i :: 0 <= i < |ps| ==> Hours(ps[i].steps) == ts[i].estimatedHours
    decreases |ts|
  {
    if |ts| == 0 then []
    else
      var p := Consume(cursor, ts[0].estimatedHours);
      var rest := Allocate(p.end, ts[1..]);
      assert forall i :: 1 <= i < |ts| ==> ts[i] == ts[1..][i - 1] && ([p] + rest)[i] == rest[i - 1];
      [p] + rest
  }

  /**
   * The cursor starts today at 09:00; today is day 0. The schedule spends
   * the sum of the estimates in workable hours from there.
   */
  function AllocateSchedule(ts: seq<Task>): (ps: seq<Placement>)
    ensures |ps| == |ts|
    ensures WorkingHours(WorkStartHour, CursorBefore(WorkStartHour, ps, |ps|)) == TotalEstimate(ts)
  {
    AllocateUsesTotalEstimate(WorkStartHour, ts);
    Allocate(WorkStartHour, ts)
  }

  /** The cursor before task `i`: the first cursor, or where task `i - 1` ended. */
  function CursorBefore(cursor: nat, ps: seq<Placement>, i: nat): nat
    requires i <= |ps|
  {
    if i == 0 then cursor else ps[i - 1].end
  }

  function TotalEstimate(ts: seq<Task>): nat
    decreases |ts|
  {
    if |ts| == 0 then 0 else ts[0].estimatedHours + TotalEstimate(ts[1..])
  }

  /** The first task is placed from the cursor, and the rest from where it ended. */
  lemma AllocateFirst(cursor: nat, ts: seq<Task>)
    requires |ts| > 0
    ensures var p := Consume(cursor, ts[0].estimatedHours);
            Allocate(cursor, ts) == [p] + Allocate(p.end, ts[1..])
  {
  }

  /** Task `i` is placed by consuming its estimate from where task `i - 1` left the cursor. */
  lemma {:induction false} AllocateStep(cursor: nat, ts: seq<Task>, i: nat)
    requires i < |ts|
    ensures var ps := Allocate(cursor, ts);
            ps[i] == Consume(CursorBefore(cursor, ps, i), ts[i].estimatedHours)
    decreases i
  {
    var ps := Allocate(cursor, ts);
    var p := Consume(cursor, ts[0].estimatedHours);
    AllocateFirst(cursor, ts);
    if i > 0 {
      AllocateStep(p.end, ts[1..], i - 1);
      var qs := Allocate(p.end, ts[1..]);
      assert ps[i] == qs[i - 1];
      assert CursorBefore(cursor, ps, i) == CursorBefore(p.end, qs, i - 1);
    }
  }

  /**
   * Each task spends exactly its estimate in workable hours between the
   * previous task's end and its own end; a task with work starts no earlier
   * than the previous one ended, and ends do not go backwards.
   */
  lemma AllocatePlacesEachTask(cursor: nat, ts: seq<Task>, i: nat)
    requires i < |ts|
    ensures var ps := Allocate(cursor, ts);
            var before := CursorBefore(cursor, ps, i);
            && WorkingHours(before, ps[i].end) == ts[i].estimatedHours
            && before <= ps[i].end
            && (ps[i].start.Some? <==> ts[i].estimatedHours > 0)
            && (ps[i].start.Some? ==> before <= ps[i].start.value < ps[i].end)
  {
    var ps := Allocate(cursor, ts);
    var before := CursorBefore(cursor, ps, i);
    AllocateStep(cursor, ts, i);
    ConsumeUsesEveryWorkingHour(before, ts[i].estimatedHours);
    ConsumeStepsInOrder(before, ts[i].estimatedHours);
    ConsumeFramed(before, ts[i].estimatedHours);
    ConsumeStepsInWindows(before, ts[i].estimatedHours);
    var p := ps[i];
    if p.start.Some? {
      AllInWindowsPointwise(p.steps, 0);
      ChronologicalLast(p.steps, before, p.end);
    }
  }

  /** The last step of an ordered run ends within its bound. */
  lemma {:induction false} ChronologicalLast(steps: seq<Span>, from: nat, to: nat)
    requires Chronological(steps, from, to) && |steps| > 0
    ensures from <= steps[0].from
    ensures steps[0].from <= steps[|steps| - 1].to
    decreases |steps|
  {
    if |steps| > 1 {
      ChronologicalLast(steps[1..], steps[0].to, to);
    }
  }

  /** The whole schedule spends exactly the sum of the estimates in workable hours. */
  lemma {:induction false} AllocateUsesTotalEstimate(cursor: nat, ts: seq<Task>)
    ensures var ps := Allocate(cursor, ts);
            WorkingHours(cursor, CursorBefore(cursor, ps, |ps|)) == TotalEstimate(ts)
    decreases |ts|
  {
    var ps := Allocate(cursor, ts);
    if |ts| > 0 {
      var p := Consume(cursor, ts[0].estimatedHours);
      var qs := Allocate(p.end, ts[1..]);
      AllocateFirst(cursor, ts);
      AllocateUsesTotalEstimate(p.end, ts[1..]);
      ConsumeUsesEveryWorkingHour(cursor, ts[0].estimatedHours);
      assert CursorBefore(cursor, ps, |ps|) == CursorBefore(p.end, qs, |qs|);
      AllocateCursorMoves(p.end, ts[1..]);
      WorkingSplit(cursor, p.end, CursorBefore(p.end, qs, |qs|));
    } else {
      assert WorkingHours(cursor, cursor) == 0;
    }
  }

  /** The cursor never moves backwards over the whole schedule. */
  lemma {:induction false} AllocateCursorMoves(cursor: nat, ts: seq<Task>)
    ensures var ps := Allocate(cursor, ts);
            cursor <= CursorBefore(cursor, ps, |ps|)
    decreases |ts|
  {
    if |ts| > 0 {
      var p := Consume(cursor, ts[0].estimatedHours);
      var qs := Allocate(p.end, ts[1..]);
      AllocateFirst(cursor, ts);
      AllocateCursorMoves(p.end, ts[1..]);
      assert CursorBefore(cursor, [p] + qs, |ts|) == CursorBefore(p.end, qs, |qs|);
    }
  }

  /**
   * A ten-hour task scheduled today works 09–12, breaks for lunch, works
   * 13–17, and finishes at 12:00 the next day.
   */
  lemma TenHourTaskSpansLunchAndNight(t: Task)
    requires t.estimatedHours == 10
    ensures AllocateSchedule([t]) == [Placement(Some(9), 36, [Span(9, 12), Span(13, 17), Span(33, 36)])]
  {
    ExampleSteps();
    assert Consume(36, 0) == Placement(None, 36, []);
    assert Consume(17, 3) == Placement(Some(33), 36, [Span(33, 36)]);
    assert Consume(12, 7) == Placement(Some(13), 36, [Span(13, 17), Span(33, 36)]);
    assert Consume(9, 10) == Placement(Some(9), 36, [Span(9, 12), Span(13, 17), Span(33, 36)]);
    assert [t][1..] == [];
  }

  /** The three steps of the ten-hour example: until lunch, until close, and the next morning. */
  lemma ExampleSteps()
    ensures NextStep(9, 10) == Span(9, 12)
    ensures NextStep(12, 7) == Span(13, 17)
    ensures NextStep(17, 3) == Span(33, 36)
  {
    assert 9 % 24 == 9 && 12 % 24 == 12 && 13 % 24 == 13 && 17 % 24 == 17 && 33 % 24 == 9;
    assert StepLength(9, 10) == 3;
    assert NextOpening(12) == 13;
    assert StepLength(13, 7) == 4;
    assert NextOpening(17) == 33;
    assert StepLength(33, 3) == 3;
  }
}

=== FILE: blocking.dfy ===
/**
 * Blocking queries: `get_block_reasons` and `is_blocked`.
 *
 * A task is blocked by each dependency that is missing from the task map or
 * is not Completed; the reasons come out in `DependsOn` order.
 */
module Blocking {
  import opened Tasks

  /** Why one dependency holds a task back. */
  datatype BlockReason =
    | Missing(dep: TaskId)
    | Waiting(dep: TaskId, title: string, owner: string)

  /** The dependency `d` is not satisfied: no such task, or it is not Completed. */
  predicate Unmet(d: TaskId, tasks: map<TaskId, Task>) {
    d !in tasks || tasks[d].status != Completed
  }

  /** The reason contributed by one dependency, if any. */
  function ReasonFor(d: TaskId, tasks: map<TaskId, Task>): seq<BlockReason> {
    if d !in tasks then [Missing(d)]
    else if tasks[d].status != Completed then [Waiting(d, tasks[d].title, tasks[d].owner)]
    else []
  }

  /** The reason list for a `DependsOn` list. */
  function BlockReasons(deps: seq<TaskId>, tasks: map<TaskId, Task>): (rs: seq<BlockReason>)
    ensures |rs| <= |deps|
    decreases |deps|
  {
    if |deps| == 0 then []
    else ReasonFor(deps[0], tasks) + BlockReasons(deps[1..], tasks)
  }

  /** `get_block_reasons`. */
  function GetBlockReasons(t: Task, tasks: map<TaskId, Task>): (rs: seq<BlockReason>)
    ensures Deps(rs) == UnmetDeps(t.dependsOn, tasks)
  {
    ReasonsNameUnmetDeps(t.dependsOn, tasks);
    BlockReasons(t.dependsOn, tasks)
  }

  /** `is_blocked`. */
  predicate IsBlocked(t: Task, tasks: map<TaskId, Task>) {
    |GetBlockReasons(t, tasks)| > 0
  }

  /** The dependencies the reasons name, in order. */
  function Deps(rs: seq<BlockReason>): (ds: seq<TaskId>)
    ensures |ds| == |rs|
    ensures forall i :: 0 <= i < |rs| ==> ds[i] == rs[i].dep
  {
    if |rs| == 0 then [] else [rs[0].dep] + Deps(rs[1..])
  }

  /** The unmet dependencies, in `DependsOn` order (duplicates kept). */
  function UnmetDeps(deps: seq<TaskId>, tasks: map<TaskId, Task>): (ds: seq<TaskId>)
    ensures forall d :: d in ds <==> d in deps && Unmet(d, tasks)
    decreases |deps|
  {
    if |deps| == 0 then []
    else (if Unmet(deps[0], tasks) then [deps[0]] else []) + UnmetDeps(deps[1..], tasks)
  }

  lemma DepsAppend(a: seq<BlockReason>, b: seq<BlockReason>)
    ensures Deps(a + b) == Deps(a) + Deps(b)
  {
  }

  /**
   * Exactly one reason per unmet dependency, in `DependsOn` order: the
   * dependencies named by the reasons are the unmet ones, in order.
   */
  lemma {:induction false} ReasonsNameUnmetDeps(deps: seq<TaskId>, tasks: map<TaskId, Task>)
    ensures Deps(BlockReasons(deps, tasks)) == UnmetDeps(deps, tasks)
    decreases |deps|
  {
    if |deps| > 0 {
      ReasonsNameUnmetDeps(deps[1..], tasks);
      DepsAppend(ReasonFor(deps[0], tasks), BlockReasons(deps[1..], tasks));
    }
  }

  /**
   * Each reason is of the right kind: Missing exactly when the dependency is
   * absent, and a Waiting reason carries the dependency's title and owner.
   */
  lemma {:induction false} ReasonsDescribeDeps(deps: seq<TaskId>, tasks: map<TaskId, Task>)
    ensures forall r :: r in BlockReasons(deps, tasks) ==>
              && r.dep in deps
              && Unmet(r.dep, tasks)
              && (r.Missing? <==> r.dep !in tasks)
              && (r.Waiting? ==> r.title == tasks[r.dep].title && r.owner == tasks[r.dep].owner)
    decreases |deps|
  {
    if |deps| > 0 {
      ReasonsDescribeDeps(deps[1..], tasks);
      var rs := BlockReasons(deps, tasks);
      assert rs == ReasonFor(deps[0], tasks) + BlockReasons(deps[1..], tasks);
    }
  }

  /** Reasons for a concatenated dependency list are the concatenated reasons. */
  lemma {:induction false} ReasonsAppend(a: seq<TaskId>, b: seq<TaskId>, tasks: map<TaskId, Task>)
    ensures BlockReasons(a + b, tasks) == BlockReasons(a, tasks) + BlockReasons(b, tasks)
    decreases |a|
  {
    if |a| > 0 {
      assert (a + b)[1..] == a[1..] + b;
      ReasonsAppend(a[1..], b, tasks);
    } else {
      assert a + b == b;
    }
  }

  /** A task is blocked exactly when one of its dependencies is missing or not Completed. */
  lemma BlockedIffUnmetDependency(t: Task, tasks: map<TaskId, Task>)
    ensures IsBlocked(t, tasks) <==> exists d :: d in t.dependsOn && Unmet(d, tasks)
  {
    ReasonsNameUnmetDeps(t.dependsOn, tasks);
    var ds := UnmetDeps(t.dependsOn, tasks);
    if |ds| > 0 {
      assert ds[0] in ds;
    }
  }

  /** A task with no dependencies, or whose dependencies are all Completed, is never blocked. */
  lemma CompletedDependenciesUnblock(t: Task, tasks: map<TaskId, Task>)
    requires forall d :: d in t.dependsOn ==> d in tasks && tasks[d].status == Completed
    ensures !IsBlocked(t, tasks)
  {
    BlockedIffUnmetDependency(t, tasks);
  }

  /** The text shown for one reason; the dependency's ID can be read back from a fixed offset. */
  function Message(r: BlockReason): (m: string)
    ensures r.Missing? ==> |m| == 24 + |r.dep| && m[24..] == r.dep
    ensures r.Waiting? ==> |m| > 11 + |r.dep| && m[11..11 + |r.dep|] == r.dep
  {
    match r
    case Missing(d) => "Depends on missing task " + d
    case Waiting(d, title, owner) => "Waiting on " + d + " (" + title + ") owned by " + owner
  }
}

=== FILE: codec.dfy ===
/**
 * Separated text fields, as Python's `str.split(sep)` and `sep.join(...)`.
 *
 * The `DependsOn` column is a `|`-separated list of TaskIDs, split when a
 * row is loaded and joined when the table is saved; an empty cell is the
 * empty list, and the empty list is written as an empty cell. The comment
 * log is the same shape with a newline as separator.
 */
module Codec {
  import opened Tasks

  const Separator: char := '|'

  /** The fields of `[c] + s` from the fields `fs` of `s`: a separator opens a new empty field, any other character joins the first field. */
  function ConsChar(sep: char, c: char, fs: seq<string>): (r: seq<string>)
    requires |fs| >= 1
    ensures |r| >= 1
  {
    if c == sep then [""] + fs else [[c] + fs[0]] + fs[1..]
  }

  /** `s.split(sep)`: always at least one field. */
  function Split(sep: char, s: string): (fields: seq<string>)
    ensures |fields| >= 1
    ensures sep !in s ==> fields == [s]
  {
    if |s| == 0 then [""]
    else
      assert sep !in s ==> sep !in s[1..] && [s[0]] + s[1..] == s;
      ConsChar(sep, s[0], Split(sep, s[1..]))
  }

  /** `sep.join(fields)`. */
  function Join(sep: char, fields: seq<string>): string
    requires |fields| >= 1
  {
    if |fields| == 1 then fields[0]
    else fields[0] + [sep] + Join(sep, fields[1..])
  }

  /** Loading a cell: an empty cell is no dependencies. */
  function ParseDepends(cell: string): (deps: seq<TaskId>)
    ensures cell == "" <==> deps == []
  {
    if cell == "" then [] else Split(Separator, cell)
  }

  /** Saving a list: no dependencies is an empty cell. */
  function FormatDepends(deps: seq<TaskId>): (cell: string)
    ensures deps == [] ==> cell == ""
  {
    if deps == [] then "" else Join(Separator, deps)
  }

  /** Joining what was split gives the text back. */
  lemma {:induction false} JoinSplit(sep: char, s: string)
    ensures Join(sep, Split(sep, s)) == s
    decreases |s|
  {
    if |s| > 0 {
      JoinSplit(sep, s[1..]);
      var rest := Split(sep, s[1..]);
      if s[0] == sep {
        assert ([""] + rest)[1..] == rest;
      } else {
        if |rest| > 1 {
          assert ([[s[0]] + rest[0]] + rest[1..])[1..] == rest[1..];
        }
      }
    }
  }

  /** Adding a character in front touches only the first field. */
  lemma ConsCharAppend(sep: char, c: char, fs: seq<string>, gs: seq<string>)
    requires |fs| >= 1
    ensures ConsChar(sep, c, fs + gs) == ConsChar(sep, c, fs) + gs
  {
    assert (fs + gs)[0] == fs[0];
    assert (fs + gs)[1..] == fs[1..] + gs;
  }

  /** A separator between two texts splits exactly there: the fields of each side, one after the other. */
  lemma {:induction false} SplitAround(sep: char, a: string, b: string)
    ensures Split(sep, a + [sep] + b) == Split(sep, a) + Split(sep, b)
    decreases |a|
  {
    if |a| == 0 {
      assert a + [sep] + b == [sep] + b;
      assert ([sep] + b)[1..] == b;
    } else {
      assert (a + [sep] + b)[1..] == a[1..] + [sep] + b;
      SplitAround(sep, a[1..], b);
      ConsCharAppend(sep, a[0], Split(sep, a[1..]), Split(sep, b));
    }
  }

  /** A field free of separators, followed by a separator, starts a new field. */
  lemma SplitAfterField(sep: char, a: string, b: string)
    requires sep !in a
    ensures Split(sep, a + [sep] + b) == [a] + Split(sep, b)
  {
    SplitAround(sep, a, b);
  }

  /** Splitting what was joined gives the fields back, when no field holds a separator. */
  lemma {:induction false} SplitJoin(sep: char, fields: seq<string>)
    requires |fields| >= 1
    requires forall i :: 0 <= i < |fields| ==> sep !in fields[i]
    ensures Split(sep, Join(sep, fields)) == fields
    decreases |fields|
  {
    if |fields| > 1 {
      SplitJoin(sep, fields[1..]);
      SplitAfterField(sep, fields[0], Join(sep, fields[1..]));
    }
  }

  /** A saved cell loads back as the same text. */
  lemma CellRoundTrip(cell: string)
    ensures FormatDepends(ParseDepends(cell)) == cell
  {
    if cell != "" {
      JoinSplit(Separator, cell);
    }
  }

  /**
   * A dependency list survives saving and loading exactly when it is not the
   * single empty ID, provided no ID contains the separator.
   */
  lemma ListRoundTrip(deps: seq<TaskId>)
    requires forall i :: 0 <= i < |deps| ==> Separator !in deps[i]
    ensures ParseDepends(FormatDepends(deps)) == deps <==> deps != [""]
  {
    if deps != [] {
      SplitJoin(Separator, deps);
    }
  }
}

=== FILE: duration.dfy ===
/**
 * The board timer's `fmt_hms`: whole seconds as `HH:MM:SS`, negative
 * durations shown as zero, and an hour field that grows past two digits.
 */
module Duration {
  import opened Wrappers

  predicate IsDigit(c: char) {
    '0' <= c <= '9'
  }

  function DigitChar(d: nat): (c: char)
    requires d < 10
    ensures IsDigit(c) && (c as int) - ('0' as int) == d
  {
    (('0' as int) + d) as char
  }

  /** Decimal digits of `n`, most significant first, no leading zeros. */
  function Digits(n: nat): (s: string)
    ensures 1 <= |s|
    ensures forall i :: 0 <= i < |s| ==> IsDigit(s[i])
    ensures |s| == 1 <==> n < 10
  {
    if n < 10 then [DigitChar(n)] else Digits(n / 10) + [DigitChar(n % 10)]
  }

  /** The value of a string of decimal digits. */
  function DecValue(s: string): nat
    requires forall i :: 0 <= i < |s| ==> IsDigit(s[i])
  {
    if |s| == 0 then 0
    else
      assert IsDigit(s[|s| - 1]);
      DecValue(s[..|s| - 1]) * 10 + ((s[|s| - 1] as int) - ('0' as int))
  }

  lemma {:induction false} DigitsValue(n: nat)
    ensures DecValue(Digits(n)) == n
  {
    if n >= 10 {
      DigitsValue(n / 10);
      var s := Digits(n);
      assert s[..|s| - 1] == Digits(n / 10);
    }
  }

  /** `{:02d}`: at least two digits, zero-padded on the left. */
  function Pad2(n: nat): (s: string)
    ensures 2 <= |s|
    ensures forall i :: 0 <= i < |s| ==> IsDigit(s[i])
    ensures n < 100 ==> |s| == 2
  {
    if n < 10 then "0" + Digits(n) else Digits(n)
  }

  lemma Pad2Value(n: nat)
    ensures DecValue(Pad2(n)) == n
  {
    DigitsValue(n);
    if n < 10 {
      var s := Pad2(n);
      assert s[..1] == "0";
      assert DecValue(s[..1]) == 0;
    }
  }

  /** `fmt_hms`. */
  function FmtHms(seconds: int): (text: string)
    ensures |text| >= 8 && text[|text| - 3] == ':' && text[|text| - 6] == ':'
    ensures (seconds < 360000 ==> |text| == 8)
  {
    var total := if seconds < 0 then 0 else seconds;
    Pad2(total / 3600) + ":" + Pad2((total % 3600) / 60) + ":" + Pad2(total % 60)
  }

  /** Reads `H..H:MM:SS` back as a number of seconds. */
  function ParseHms(text: string): (r: Option<nat>)
    ensures r.Some? ==> |text| >= 8
  {
    if |text| < 8 || text[|text| - 3] != ':' || text[|text| - 6] != ':' then None
    else
      var hh := text[..|text| - 6];
      var mm := text[|text| - 5..|text| - 3];
      var ss := text[|text| - 2..];
      if (forall i :: 0 <= i < |hh| ==> IsDigit(hh[i]))
         && IsDigit(mm[0]) && IsDigit(mm[1]) && IsDigit(ss[0]) && IsDigit(ss[1])
      then Some(DecValue(hh) * 3600 + DecValue(mm) * 60 + DecValue(ss))
      else None
  }

  /** The timer text reads back as the clamped duration: nothing is lost but the sign. */
  lemma FmtHmsRoundTrip(seconds: int)
    ensures ParseHms(FmtHms(seconds)) == Some(if seconds < 0 then 0 else seconds)
  {
    var total := if seconds < 0 then 0 else seconds;
    var h, m, s := total / 3600, (total % 3600) / 60, total % 60;
    Pad2Value(h);
    Pad2Value(m);
    Pad2Value(s);
    var text := FmtHms(seconds);
    var ph, pm, ps := Pad2(h), Pad2(m), Pad2(s);
    assert text == ph + ":" + pm + ":" + ps;
    assert text[..|text| - 6] == ph;
    assert text[|text| - 5..|text| - 3] == pm;
    assert text[|text| - 2..] == ps;
    assert total == h * 3600 + m * 60 + s;
  }

  /** The minutes and seconds fields are always below 60. */
  lemma FmtHmsFieldsInRange(seconds: int)
    ensures var text := FmtHms(seconds);
            var total := if seconds < 0 then 0 else seconds;
            && DecValue(text[|text| - 5..|text| - 3]) < 60
            && DecValue(text[|text| - 2..]) < 60
            && DecValue(text[..|text| - 6]) == total / 3600
  {
    var total := if seconds < 0 then 0 else seconds;
    var h, m, s := total / 3600, (total % 3600) / 60, total % 60;
    Pad2Value(h);
    Pad2Value(m);
    Pad2Value(s);
    var text := FmtHms(seconds);
    assert text == Pad2(h) + ":" + Pad2(m) + ":" + Pad2(s);
    assert text[..|text| - 6] == Pad2(h);
    assert text[|text| - 5..|text| - 3] == Pad2(m);
    assert text[|text| - 2..] == Pad2(s);
  }
}

=== FILE: lifecycle.dfy ===
/**
 * The task lifecycle: `append_comment_log`, the timing and status part of
 * `update_task_status`, and the board's legality rules (the `allowed` table
 * of a drop, `move_task_to_status` with its owner, blocked and single
 * In Progress guards, and the Pause / Complete / Cancel button checks),
 * folded into pure functions from a task map to an outcome.
 *
 * The clock is a parameter: `now` in whole seconds for time accounting and
 * `stamp` as the opaque text written to the log. The comment the user types
 * is a parameter too.
 */
module Lifecycle {
  import opened Wrappers
  import opened Tasks
  import opened Blocking
  import Codec

  const Newline: char := '\n'

  /** Python truthiness of an optional text cell: absent and empty are both false. */
  predicate Filled(v: Option<string>) {
    v.Some? && v.value != ""
  }

  function CommentText(comment: Option<string>): string {
    if comment.Some? then comment.value else ""
  }

  /** One audit line: `<stamp> | <action>: <comment>`. */
  function LogEntry(stamp: string, action: string, comment: Option<string>): string {
    stamp + " | " + action + ": " + CommentText(comment)
  }

  /** `append_comment_log`: the entry goes on a new line after any existing log. */
  function AppendCommentLog(t: Task, action: string, comment: Option<string>, stamp: string): (r: Task)
    ensures r.commentLog.Some?
    ensures r == t.(commentLog := r.commentLog, lastComment := comment, lastUpdated := Some(stamp))
  {
    var entry := LogEntry(stamp, action, comment);
    var log := if Filled(t.commentLog) then t.commentLog.value + [Newline] + entry else entry;
    t.(commentLog := Some(log), lastComment := comment, lastUpdated := Some(stamp))
  }

  /** The log read as lines; an empty log has none. */
  function LogLines(log: Option<string>): seq<string> {
    if Filled(log) then Codec.Split(Newline, log.value) else []
  }

  /** The log grows by the lines of the new entry, after every earlier line. */
  lemma AppendAddsEntryLines(t: Task, action: string, comment: Option<string>, stamp: string)
    ensures LogLines(AppendCommentLog(t, action, comment, stamp).commentLog)
            == LogLines(t.commentLog) + Codec.Split(Newline, LogEntry(stamp, action, comment))
  {
    var entry := LogEntry(stamp, action, comment);
    assert |entry| > 0 by {
      assert entry == stamp + " | " + action + ": " + CommentText(comment);
    }
    if Filled(t.commentLog) {
      Codec.SplitAround(Newline, t.commentLog.value, entry);
    }
  }

  /**
   * The log grows by exactly one line, the new entry, and keeps every earlier
   * line, when the entry itself holds no line break.
   */
  lemma AppendAddsOneLine(t: Task, action: string, comment: Option<string>, stamp: string)
    requires Newline !in LogEntry(stamp, action, comment)
    ensures LogLines(AppendCommentLog(t, action, comment, stamp).commentLog)
            == LogLines(t.commentLog) + [LogEntry(stamp, action, comment)]
  {
    AppendAddsEntryLines(t, action, comment, stamp);
  }

  /** The start of an active session, when it parses (`parse_iso`). */
  function SessionStart(t: Task): Option<int> {
    if t.inProgressStart.Some? && t.inProgressStart.value.At? then Some(t.inProgressStart.value.seconds)
    else None
  }

  /** Python truthiness of the stored session start. */
  predicate StartRecorded(t: Task) {
    t.inProgressStart.Some? && !(t.inProgressStart.value.Malformed? && t.inProgressStart.value.text == "")
  }

  /** Whole seconds between the session start and `now`, never negative. */
  function SessionSeconds(t: Task, now: int): nat {
    var start := SessionStart(t);
    if start.Some? && now > start.value then now - start.value else 0
  }

  /**
   * The timing side effects of `update_task_status`: leaving In Progress banks
   * the session and clears its start; entering In Progress records `now` as
   * the start unless a start is already recorded.
   */
  function Timed(t: Task, target: Status, now: int): (r: Task)
    ensures r.actualSeconds >= t.actualSeconds
    ensures r == t.(actualSeconds := r.actualSeconds, inProgressStart := r.inProgressStart)
  {
    var leaving := t.status == InProgress && target != InProgress;
    var entering := target == InProgress && t.status != InProgress;
    var t1 := if leaving then t.(actualSeconds := t.actualSeconds + SessionSeconds(t, now), inProgressStart := None) else t;
    if entering && !StartRecorded(t1) then t1.(inProgressStart := Some(At(now))) else t1
  }

  /** `update_task_status` raises on a status outside the five, after the timing side effects. */
  datatype StatusError = InvalidStatus(status: Status, timed: Task)

  /** The label written to the log: the caller's action, else `Status -> <status>`. */
  function ActionLabel(action: Option<string>, target: Status): string {
    if Filled(action) then action.value else "Status -> " + Label(target)
  }

  /** `update_task_status`, with the comment prompt's answer and the clock as parameters. */
  function UpdateStatus(t: Task, target: Status, action: Option<string>, comment: Option<string>, now: int, stamp: string): (r: Result<Task, StatusError>)
    ensures r.Success? <==> target.Known()
    ensures r.Success? ==> r.value.status == target
    ensures r.Failure? ==> r.error.timed.status == t.status
    ensures r.Success? ==> LogLines(r.value.commentLog)
                           == LogLines(t.commentLog) + Codec.Split(Newline, LogEntry(stamp, ActionLabel(action, target), comment))
  {
    var timed := Timed(t, target, now);
    if !target.Known() then Failure(InvalidStatus(target, timed))
    else
      AppendAddsEntryLines(timed.(status := target), ActionLabel(action, target), comment, stamp);
      Success(AppendCommentLog(timed.(status := target), ActionLabel(action, target), comment, stamp))
  }

  /** The task after `update_task_status`, whether it returned or raised. */
  function Updated(r: Result<Task, StatusError>): Task {
    if r.Success? then r.value else r.error.timed
  }

  /** The fields `update_task_status` never touches. */
  predicate SameRecord(a: Task, b: Task) {
    && a.id == b.id && a.project == b.project && a.milestone == b.milestone && a.title == b.title
    && a.owner == b.owner && a.dependsOn == b.dependsOn && a.estimatedHours == b.estimatedHours
    && a.priority == b.priority
  }

  /**
   * Time accounting, on both the normal and the raising path: leaving In
   * Progress adds the session's non-negative length and clears the start;
   * entering it sets the start only when none is recorded; any other change
   * leaves the clock fields alone. The record's other fields never change.
   */
  lemma UpdateStatusTiming(t: Task, target: Status, action: Option<string>, comment: Option<string>, now: int, stamp: string)
    ensures var u := Updated(UpdateStatus(t, target, action, comment, now, stamp));
            && SameRecord(t, u)
            && (t.status == InProgress && target != InProgress ==>
                  && u.actualSeconds == t.actualSeconds + SessionSeconds(t, now)
                  && u.inProgressStart.None?)
            && (t.status != InProgress && target == InProgress ==>
                  && u.actualSeconds == t.actualSeconds
                  && u.inProgressStart == (if StartRecorded(t) then t.inProgressStart else Some(At(now))))
            && ((t.status == InProgress) == (target == InProgress) ==>
                  && u.actualSeconds == t.actualSeconds
                  && u.inProgressStart == t.inProgressStart)
  {
  }

  /** A session opened at `start` and closed at `stop` adds exactly `stop - start` seconds (never less than 0). */
  lemma SessionRoundTrip(t: Task, target: Status, start: int, stop: int, stamp1: string, stamp2: string)
    requires t.status.Known() && t.status != InProgress && !StartRecorded(t)
    requires target.Known() && target != InProgress
    ensures var r1 := UpdateStatus(t, InProgress, None, None, start, stamp1);
            var r2 := UpdateStatus(r1.value, target, None, None, stop, stamp2);
            && r2.Success?
            && r2.value.status == target
            && r2.value.actualSeconds == t.actualSeconds + (if stop > start then stop - start else 0)
            && r2.value.inProgressStart.None?
  {
  }

  /** The record is in a consistent session state: a start is stored exactly while In Progress. */
  predicate SessionConsistent(t: Task) {
    t.status == InProgress <==> t.inProgressStart.Some?
  }

  /** A successful status update keeps the session state consistent. */
  lemma UpdateKeepsSessionConsistent(t: Task, target: Status, action: Option<string>, comment: Option<string>, now: int, stamp: string)
    requires SessionConsistent(t)
    requires target.Known()
    ensures UpdateStatus(t, target, action, comment, now, stamp).Success?
    ensures SessionConsistent(UpdateStatus(t, target, action, comment, now, stamp).value)
  {
  }

  // ---------------------------------------------------------------------
  // The board

  /** The board's moves (`allowed` in `on_drop`); Completed and Canceled have none. */
  predicate Allowed(from: Status, to: Status)
    ensures Allowed(from, to) ==> from.Known() && to.Known() && from != to
  {
    match from
    case Pending => to == InProgress || to == Canceled
    case Paused => to == InProgress || to == Canceled
    case InProgress => to == Paused || to == Completed || to == Canceled
    case _ => false
  }

  /** Nothing leaves Completed or Canceled, and every allowed move changes status. */
  lemma AllowedTable(from: Status, to: Status)
    ensures (from == Completed || from == Canceled || from.Unrecognised?) ==> !Allowed(from, to)
    ensures Allowed(from, to) ==> from != to && from.Known() && to.Known() && to != Pending
  {
  }

  predicate OwnedInProgress(t: Task, owner: string) {
    t.owner == owner && t.status == InProgress
  }

  /** Position in `keys` of the first task that is `owner`'s and In Progress. */
  function FirstInProgressAt(keys: seq<TaskId>, tasks: map<TaskId, Task>, owner: string): (r: Option<nat>)
    requires forall k :: k in keys ==> k in tasks
    ensures r.None? <==> forall k :: k in keys ==> !OwnedInProgress(tasks[k], owner)
    ensures r.Some? ==> r.value < |keys| && OwnedInProgress(tasks[keys[r.value]], owner)
    ensures r.Some? ==> forall j :: 0 <= j < r.value ==> !OwnedInProgress(tasks[keys[j]], owner)
  {
    if |keys| == 0 then None
    else if OwnedInProgress(tasks[keys[0]], owner) then Some(0)
    else
      assert forall k :: k in keys <==> k == keys[0] || k in keys[1..];
      match FirstInProgressAt(keys[1..], tasks, owner)
      case None => None
      case Some(i) => Some(i + 1)
  }

  /**
   * `get_first_in_progress`: the first key in map order whose task is
   * `owner`'s and In Progress (`ips[0]`).
   */
  function FirstInProgress(keys: seq<TaskId>, tasks: map<TaskId, Task>, owner: string): (r: Option<TaskId>)
    requires forall k :: k in keys ==> k in tasks
    ensures r.None? <==> forall k :: k in keys ==> !OwnedInProgress(tasks[k], owner)
    ensures r.Some? ==> r.value in keys && OwnedInProgress(tasks[r.value], owner)
    ensures r.Some? ==> exists i :: 0 <= i < |keys| && keys[i] == r.value
                                   && forall j :: 0 <= j < i ==> !OwnedInProgress(tasks[keys[j]], owner)
  {
    match FirstInProgressAt(keys, tasks, owner)
    case None => None
    case Some(i) => Some(keys[i])
  }

  /** Why the board refused an action (the message box it shows). */
  datatype Refusal =
    | IllegalMove(from: Status, to: Status)
    | NotOwner(owner: string)
    | BlockedBy(reasons: seq<BlockReason>)
    | Busy(active: TaskId)
    | NotApplicable(button: Button)

  datatype Button = Pause | Complete | Cancel

  /** The result of a drop or a button press: silently nothing, a refusal, or the updated map. */
  datatype Outcome = Ignored | Refused(why: Refusal) | Applied(store: Store)

  /** `enforce_single_in_progress`: another of the owner's tasks is already In Progress. */
  function OtherInProgress(s: Store, owner: string, id: TaskId): (r: Option<TaskId>)
    requires forall k :: k in s.keys ==> k in s.tasks
    ensures r.Some? ==> r.value != id && r.value in s.keys && OwnedInProgress(s.tasks[r.value], owner)
    ensures (id !in s.tasks || !OwnedInProgress(s.tasks[id], owner)) ==>
              (r.None? <==> forall k :: k in s.keys ==> !OwnedInProgress(s.tasks[k], owner))
  {
    var ip := FirstInProgress(s.keys, s.tasks, owner);
    if ip.Some? && ip.value != id then ip else None
  }

  /** The guards of `move_task_to_status`, in the order it checks them. */
  function MoveGuard(s: Store, owner: string, id: TaskId, target: Status): (r: Option<Refusal>)
    requires s.Valid() && id in s.tasks
    ensures r.None? ==> s.tasks[id].owner == owner
    ensures r.None? && target == InProgress ==> !IsBlocked(s.tasks[id], s.tasks)
    ensures r.Some? ==> (r.value.NotOwner? <==> s.tasks[id].owner != owner)
    ensures r.Some? ==> (r.value.BlockedBy? || r.value.Busy?) ==> target == InProgress
    ensures r.Some? && r.value.BlockedBy? ==> r.value.reasons == GetBlockReasons(s.tasks[id], s.tasks) != []
    ensures r.Some? && r.value.Busy? ==> r.value.active != id && r.value.active in s.tasks && OwnedInProgress(s.tasks[r.value.active], owner)
    ensures r.Some? ==> r.value.NotOwner? || r.value.BlockedBy? || r.value.Busy?
  {
    var t := s.tasks[id];
    if t.owner != owner then Some(NotOwner(t.owner))
    else if target == InProgress && IsBlocked(t, s.tasks) then Some(BlockedBy(GetBlockReasons(t, s.tasks)))
    else if target == InProgress && OtherInProgress(s, owner, id).Some? then Some(Busy(OtherInProgress(s, owner, id).value))
    else None
  }

  /** The label `move_task_to_status` hands on: the caller's label, else `Move -> <status>`. */
  function MoveLabel(action: Option<string>, target: Status): (text: string)
    ensures Filled(action) ==> text == action.value
    ensures |text| > 0
  {
    if Filled(action) then action.value else "Move -> " + Label(target)
  }

  /** `move_task_to_status`: the guards, then `update_task_status` on the one task. */
  function MoveTaskToStatus(s: Store, owner: string, id: TaskId, target: Status, action: Option<string>,
                            comment: Option<string>, now: int, stamp: string): (o: Outcome)
    requires s.Valid() && id in s.tasks && target.Known()
    ensures o.Ignored? == false
    ensures o.Applied? <==> MoveGuard(s, owner, id, target).None?
    ensures o.Refused? ==> MoveGuard(s, owner, id, target).Some? && o.why == MoveGuard(s, owner, id, target).value
  {
    var guard := MoveGuard(s, owner, id, target);
    if guard.Some? then Refused(guard.value)
    else
      var u := UpdateStatus(s.tasks[id], target, Some(MoveLabel(action, target)), comment, now, stamp);
      Applied(s.(tasks := s.tasks[id := u.value]))
  }

  /** A drop of task `id` on the `target` column (`on_drop`). */
  function Transition(s: Store, owner: string, id: TaskId, target: Status,
                      comment: Option<string>, now: int, stamp: string): (o: Outcome)
    requires s.Valid()
    ensures o.Ignored? <==> id !in s.tasks || s.tasks[id].status == target
    ensures (id in s.tasks && o == Refused(IllegalMove(s.tasks[id].status, target)))
            <==> id in s.tasks && s.tasks[id].status != target && !Allowed(s.tasks[id].status, target)
    ensures o.Refused? && !o.why.IllegalMove? ==>
              id in s.tasks && MoveGuard(s, owner, id, target).Some? && o.why == MoveGuard(s, owner, id, target).value
    ensures o.Applied? ==> id in s.tasks && Allowed(s.tasks[id].status, target) && s.tasks[id].owner == owner
  {
    if id !in s.tasks then Ignored
    else
      var t := s.tasks[id];
      if target == t.status then Ignored
      else if !Allowed(t.status, target) then Refused(IllegalMove(t.status, target))
      else MoveTaskToStatus(s, owner, id, target, None, comment, now, stamp)
  }

  /** The status each button moves to, and the label it logs. */
  function ButtonTarget(b: Button): Status {
    match b
    case Pause => Paused
    case Complete => Completed
    case Cancel => Canceled
  }

  function ButtonLabel(b: Button): string {
    match b
    case Pause => "Pause"
    case Complete => "Complete"
    case Cancel => "Cancel"
  }

  /** The button's own check on the selected task's status. */
  predicate ButtonApplies(b: Button, st: Status) {
    match b
    case Pause => st == InProgress
    case Complete => st == InProgress
    case Cancel => st == Pending || st == InProgress || st == Paused
  }

  /** A button press on the selected task `id` (`do_pause`, `do_complete`, `do_cancel`). */
  function Press(s: Store, owner: string, id: TaskId, b: Button,
                 comment: Option<string>, now: int, stamp: string): (o: Outcome)
    requires s.Valid()
    ensures o.Ignored? <==> id !in s.tasks
    ensures o.Refused? && o.why.NotApplicable? <==> id in s.tasks && !ButtonApplies(b, s.tasks[id].status)
    ensures o.Refused? && o.why.NotApplicable? ==> o.why == NotApplicable(b)
    ensures o.Refused? && !o.why.NotApplicable? ==>
              id in s.tasks && MoveGuard(s, owner, id, ButtonTarget(b)).Some? && o.why == MoveGuard(s, owner, id, ButtonTarget(b)).value
    ensures o.Applied? ==> ButtonApplies(b, s.tasks[id].status) && s.tasks[id].owner == owner
  {
    if id !in s.tasks then Ignored
    else if !ButtonApplies(b, s.tasks[id].status) then Refused(NotApplicable(b))
    else MoveTaskToStatus(s, owner, id, ButtonTarget(b), Some(ButtonLabel(b)), comment, now, stamp)
  }

  // ---------------------------------------------------------------------
  // Properties of the board

  /** What the source allows: the move is in the table, the task is the owner's, and starting it needs it unblocked and the owner idle. */
  predicate DropAccepted(s: Store, owner: string, id: TaskId, target: Status)
    requires s.Valid()
  {
    && id in s.tasks
    && Allowed(s.tasks[id].status, target)
    && s.tasks[id].owner == owner
    && (target == InProgress ==>
          && !(exists d :: d in s.tasks[id].dependsOn && Unmet(d, s.tasks))
          && forall k :: k in s.tasks && k != id ==> !OwnedInProgress(s.tasks[k], owner))
  }

  /** The guard of `move_task_to_status` passes exactly when the owner matches and, for In Progress, the task is unblocked and the owner has no other task In Progress. */
  lemma MoveGuardExact(s: Store, owner: string, id: TaskId, target: Status)
    requires s.Valid() && id in s.tasks && s.tasks[id].status != target
    ensures MoveGuard(s, owner, id, target).None? <==>
              && s.tasks[id].owner == owner
              && (target == InProgress ==>
                    && !(exists d :: d in s.tasks[id].dependsOn && Unmet(d, s.tasks))
                    && forall k :: k in s.tasks && k != id ==> !OwnedInProgress(s.tasks[k], owner))
  {
    var t := s.tasks[id];
    BlockedIffUnmetDependency(t, s.tasks);
    var ip := FirstInProgress(s.keys, s.tasks, owner);
    if ip.Some? {
      assert ip.value in s.tasks;
    }
  }

  /** A drop changes the map exactly when the source accepts it; a drop on the task's own column, or of an unknown task, does nothing. */
  lemma TransitionAppliedExactly(s: Store, owner: string, id: TaskId, target: Status, comment: Option<string>, now: int, stamp: string)
    requires s.Valid()
    ensures var o := Transition(s, owner, id, target, comment, now, stamp);
            && (o.Applied? <==> DropAccepted(s, owner, id, target))
            && (o.Ignored? <==> id !in s.tasks || s.tasks[id].status == target)
  {
    if id in s.tasks {
      AllowedTable(s.tasks[id].status, target);
      if s.tasks[id].status != target {
        MoveGuardExact(s, owner, id, target);
      }
    }
  }

  /** A Completed or Canceled task never moves. */
  lemma TerminalStatusesStay(s: Store, owner: string, id: TaskId, target: Status, comment: Option<string>, now: int, stamp: string)
    requires s.Valid() && id in s.tasks
    requires s.tasks[id].status == Completed || s.tasks[id].status == Canceled
    ensures !Transition(s, owner, id, target, comment, now, stamp).Applied?
    ensures forall b :: !Press(s, owner, id, b, comment, now, stamp).Applied?
  {
  }

  /** A press changes the map exactly when the button applies to the task's status and the owner matches. */
  lemma PressAppliedExactly(s: Store, owner: string, id: TaskId, b: Button, comment: Option<string>, now: int, stamp: string)
    requires s.Valid()
    ensures Press(s, owner, id, b, comment, now, stamp).Applied? <==>
              id in s.tasks && ButtonApplies(b, s.tasks[id].status) && s.tasks[id].owner == owner
  {
  }

  /** An applied outcome touches only the moved task, which gets the target status and the lines of its log entry. */
  lemma MoveChangesOnlyTheTask(s: Store, owner: string, id: TaskId, target: Status, action: Option<string>,
                               comment: Option<string>, now: int, stamp: string)
    requires s.Valid() && id in s.tasks && target.Known()
    ensures var o := MoveTaskToStatus(s, owner, id, target, action, comment, now, stamp);
            o.Applied? ==>
              && o.store.Valid()
              && o.store.keys == s.keys
              && o.store.tasks.Keys == s.tasks.Keys
              && (forall k :: k in s.tasks && k != id ==> o.store.tasks[k] == s.tasks[k])
              && o.store.tasks[id].status == target
              && SameRecord(s.tasks[id], o.store.tasks[id])
              && o.store.tasks[id].actualSeconds >= s.tasks[id].actualSeconds
              && o.store.tasks[id].lastComment == comment
              && o.store.tasks[id].lastUpdated == Some(stamp)
              && LogLines(o.store.tasks[id].commentLog)
                 == LogLines(s.tasks[id].commentLog) + Codec.Split(Newline, LogEntry(stamp, MoveLabel(action, target), comment))
  {
    var o := MoveTaskToStatus(s, owner, id, target, action, comment, now, stamp);
    if o.Applied? {
      var text := MoveLabel(action, target);
      var u := UpdateStatus(s.tasks[id], target, Some(text), comment, now, stamp);
      UpdateStatusTiming(s.tasks[id], target, Some(text), comment, now, stamp);
      assert o.store.tasks == s.tasks[id := u.value];
    }
  }

  /** Each owner has at most one task In Progress. */
  ghost predicate SingleInProgress(s: Store) {
    forall a, b ::
      (a in s.tasks && b in s.tasks && OwnedInProgress(s.tasks[a], s.tasks[a].owner)
       && OwnedInProgress(s.tasks[b], s.tasks[a].owner)) ==> a == b
  }

  /** Every task stores a session start exactly while In Progress. */
  ghost predicate SessionsConsistent(s: Store) {
    forall k :: k in s.tasks ==> SessionConsistent(s.tasks[k])
  }

  /** The board's invariants survive any move: still one In Progress task per owner, and session starts still match. */
  lemma MovePreservesInvariants(s: Store, owner: string, id: TaskId, target: Status, action: Option<string>,
                                comment: Option<string>, now: int, stamp: string)
    requires s.Valid() && id in s.tasks && target.Known() && s.tasks[id].status != target
    requires SingleInProgress(s) && SessionsConsistent(s)
    ensures var o := MoveTaskToStatus(s, owner, id, target, action, comment, now, stamp);
            o.Applied? ==> SingleInProgress(o.store) && SessionsConsistent(o.store)
  {
    var o := MoveTaskToStatus(s, owner, id, target, action, comment, now, stamp);
    if o.Applied? {
      MoveChangesOnlyTheTask(s, owner, id, target, action, comment, now, stamp);
      MoveGuardExact(s, owner, id, target);
      UpdateKeepsSessionConsistent(s.tasks[id], target, Some(MoveLabel(action, target)), comment, now, stamp);
      var n := o.store;
      assert n.tasks[id] == UpdateStatus(s.tasks[id], target, Some(MoveLabel(action, target)), comment, now, stamp).value;
      forall a, b | a in n.tasks && b in n.tasks && OwnedInProgress(n.tasks[a], n.tasks[a].owner)
                    && OwnedInProgress(n.tasks[b], n.tasks[a].owner)
        ensures a == b
      {
        if a != id && b != id {
          assert OwnedInProgress(s.tasks[b], s.tasks[a].owner);
        }
      }
    }
  }

  /** Drops and presses keep the board's invariants. */
  lemma BoardPreservesInvariants(s: Store, owner: string, id: TaskId, target: Status, b: Button,
                                 comment: Option<string>, now: int, stamp: string)
    requires s.Valid() && SingleInProgress(s) && SessionsConsistent(s)
    ensures var o := Transition(s, owner, id, target, comment, now, stamp);
            o.Applied? ==> o.store.Valid() && SingleInProgress(o.store) && SessionsConsistent(o.store)
    ensures var o := Press(s, owner, id, b, comment, now, stamp);
            o.Applied? ==> o.store.Valid() && SingleInProgress(o.store) && SessionsConsistent(o.store)
  {
    if id in s.tasks {
      var t := s.tasks[id];
      if target != t.status && Allowed(t.status, target) {
        AllowedTable(t.status, target);
        MovePreservesInvariants(s, owner, id, target, None, comment, now, stamp);
        MoveChangesOnlyTheTask(s, owner, id, target, None, comment, now, stamp);
      }
      if ButtonApplies(b, t.status) {
        MovePreservesInvariants(s, owner, id, ButtonTarget(b), Some(ButtonLabel(b)), comment, now, stamp);
        MoveChangesOnlyTheTask(s, owner, id, ButtonTarget(b), Some(ButtonLabel(b)), comment, now, stamp);
      }
    }
  }
}

=== FILE: progress.dfy ===
/**
 * Read-only board queries: `calc_progress_all` and `owner_active_counts`.
 */
module Progress {
  import opened Wrappers
  import opened Tasks

  /**
   * Python's `round` on the exact ratio `num / den`: the nearest integer,
   * and on a tie the even one.
   */
  function RoundHalfEven(num: nat, den: nat): (q: nat)
    requires den > 0
    ensures NearestEven(num, den, q)
  {
    var q := num / den;
    var r := num % den;
    assert 2 * num - 2 * q * den == 2 * r;
    assert 2 * num - 2 * (q + 1) * den == 2 * r - 2 * den;
    if 2 * r < den then q
    else if 2 * r > den then q + 1
    else if q % 2 == 0 then q
    else q + 1
  }

  /** Halves go to the even neighbour: 12.5 to 12 and 37.5 to 38; a quarter of 100 is 25. */
  lemma HalvesGoToEven()
    ensures RoundHalfEven(100, 8) == 12
    ensures RoundHalfEven(300, 8) == 38
    ensures RoundHalfEven(100, 4) == 25
  {
  }

  lemma MulAtLeast(k: int, den: nat)
    requires k >= 1 && den > 0
    ensures k * den >= den
  {
    assert k * den == den + (k - 1) * den;
  }

  /** What a whole multiple of `den` can be, by the size of the multiplier. */
  lemma MulCases(k: int, den: nat)
    requires den > 0
    ensures k >= 2 ==> k * den >= 2 * den
    ensures k <= -2 ==> k * den <= -2 * den
    ensures k == 1 ==> k * den == den
    ensures k == -1 ==> k * den == -(den as int)
    ensures k == 0 ==> k * den == 0
  {
    if k >= 2 {
      MulAtLeast(k - 1, den);
      assert k * den == den + (k - 1) * den;
    } else if k <= -2 {
      MulAtLeast(-k - 1, den);
      assert k * den == -(den + (-k - 1) * den);
    }
  }

  /** `q` is a nearest integer to `num / den`, and the even one on a tie. */
  predicate NearestEven(num: int, den: nat, q: int) {
    var d := 2 * num - 2 * q * den;
    && -(den as int) <= d <= den
    && (d == den ==> q % 2 == 0)
    && (d == -(den as int) ==> q % 2 == 0)
  }

  lemma {:induction false} NearestEvenUnique(num: int, den: nat, a: int, b: int)
    requires den > 0 && NearestEven(num, den, a) && NearestEven(num, den, b)
    ensures a == b
  {
    var k := a - b;
    MulCases(k, den);
    assert a * den - b * den == k * den;
  }

  /** The nearest-integer-ties-to-even answer is unique: any candidate meeting the same conditions is the one `RoundHalfEven` gives. */
  lemma RoundHalfEvenUnique(num: nat, den: nat, q': int)
    requires den > 0 && NearestEven(num, den, q')
    ensures q' == RoundHalfEven(num, den)
  {
    NearestEvenUnique(num, den, q', RoundHalfEven(num, den));
  }

  /** A ratio at most `k` rounds to at most `k`. */
  lemma RoundHalfEvenAtMost(num: nat, den: nat, k: nat)
    requires den > 0 && num <= k * den
    ensures RoundHalfEven(num, den) <= k
  {
    var q := RoundHalfEven(num, den);
    if q > k {
      MulAtLeast(q - k, den);
    }
  }

  /** A falsy filter (`None` or the empty string) lets everything through. */
  predicate Passes(filter: Option<string>, value: string) {
    filter.None? || filter.value == "" || value == filter.value
  }

  predicate InScope(t: Task, project: Option<string>, milestone: Option<string>) {
    Passes(project, t.project) && Passes(milestone, t.milestone)
  }

  /** The tasks in scope, in iteration order. */
  function Relevant(ts: seq<Task>, project: Option<string>, milestone: Option<string>): (rs: seq<Task>)
    ensures |rs| <= |ts|
    ensures forall t :: t in rs <==> t in ts && InScope(t, project, milestone)
    decreases |ts|
  {
    if |ts| == 0 then []
    else (if InScope(ts[0], project, milestone) then [ts[0]] else []) + Relevant(ts[1..], project, milestone)
  }

  function CountCompleted(ts: seq<Task>): (n: nat)
    ensures n <= |ts|
    decreases |ts|
  {
    if |ts| == 0 then 0
    else (if ts[0].status == Completed then 1 else 0) + CountCompleted(ts[1..])
  }

  /** `calc_progress_all` over the tasks in iteration order. */
  function CalcProgress(ts: seq<Task>, project: Option<string>, milestone: Option<string>): (pct: nat)
    ensures Relevant(ts, project, milestone) == [] ==> pct == 0
    ensures pct <= 100
  {
    var relevant := Relevant(ts, project, milestone);
    if |relevant| == 0 then 0
    else
      RoundHalfEvenAtMost(100 * CountCompleted(relevant), |relevant|, 100);
      RoundHalfEven(100 * CountCompleted(relevant), |relevant|)
  }

  /** `calc_progress_all` on the task map. */
  function CalcProgressAll(s: Store, project: Option<string>, milestone: Option<string>): (pct: nat)
    requires forall k :: k in s.keys ==> k in s.tasks
    ensures pct <= 100
  {
    CalcProgress(Values(s), project, milestone)
  }

  /** The scope filter is stable: filtering a concatenation concatenates the filtered parts, so each in-scope task is kept once and in order. */
  lemma {:induction false} RelevantAppend(a: seq<Task>, b: seq<Task>, project: Option<string>, milestone: Option<string>)
    ensures Relevant(a + b, project, milestone) == Relevant(a, project, milestone) + Relevant(b, project, milestone)
    decreases |a|
  {
    if |a| > 0 {
      assert (a + b)[0] == a[0] && (a + b)[1..] == a[1..] + b;
      RelevantAppend(a[1..], b, project, milestone);
      RelevantFirst(a + b, project, milestone);
      RelevantFirst(a, project, milestone);
      var head := if InScope(a[0], project, milestone) then [a[0]] else [];
      Associative(head, Relevant(a[1..], project, milestone), Relevant(b, project, milestone));
    } else {
      assert a + b == b;
    }
  }

  lemma Associative<T>(x: seq<T>, y: seq<T>, z: seq<T>)
    ensures x + (y + z) == (x + y) + z
  {
  }

  /** One step of the filter: the first task if it is in scope, then the filtered rest. */
  lemma RelevantFirst(ts: seq<Task>, project: Option<string>, milestone: Option<string>)
    requires |ts| > 0
    ensures Relevant(ts, project, milestone)
            == (if InScope(ts[0], project, milestone) then [ts[0]] else []) + Relevant(ts[1..], project, milestone)
  {
  }

  /** A list wholly in scope is kept whole; a list wholly out of scope is dropped. */
  lemma {:induction false} RelevantExtremes(ts: seq<Task>, project: Option<string>, milestone: Option<string>)
    ensures (forall i :: 0 <= i < |ts| ==> InScope(ts[i], project, milestone)) ==> Relevant(ts, project, milestone) == ts
    ensures (forall i :: 0 <= i < |ts| ==> !InScope(ts[i], project, milestone)) ==> Relevant(ts, project, milestone) == []
    decreases |ts|
  {
    if |ts| > 0 {
      RelevantExtremes(ts[1..], project, milestone);
      assert forall i :: 1 <= i < |ts| ==> ts[i] == ts[1..][i - 1];
      assert [ts[0]] + ts[1..] == ts;
    }
  }

  /** The count of a concatenation is the sum of the counts. */
  lemma {:induction false} CountCompletedAppend(a: seq<Task>, b: seq<Task>)
    ensures CountCompleted(a + b) == CountCompleted(a) + CountCompleted(b)
    decreases |a|
  {
    if |a| > 0 {
      assert (a + b)[0] == a[0] && (a + b)[1..] == a[1..] + b;
      CountCompletedAppend(a[1..], b);
    } else {
      assert a + b == b;
    }
  }

  /** Every task is Completed exactly when the count is the length; none is when the count is 0. */
  lemma {:induction false} CountCompletedExtremes(ts: seq<Task>)
    ensures CountCompleted(ts) == |ts| <==> forall i :: 0 <= i < |ts| ==> ts[i].status == Completed
    ensures CountCompleted(ts) == 0 <==> forall i :: 0 <= i < |ts| ==> ts[i].status != Completed
    decreases |ts|
  {
    if |ts| > 0 {
      CountCompletedExtremes(ts[1..]);
      assert forall i :: 1 <= i < |ts| ==> ts[i] == ts[1..][i - 1];
    }
  }

  /**
   * With a non-empty scope the percentage is the nearest whole number to
   * 100 * completed / in-scope, ties to even; a scope that is all Completed
   * gives 100 and one with nothing Completed gives 0.
   */
  lemma ProgressIsNearestPercentage(ts: seq<Task>, project: Option<string>, milestone: Option<string>)
    ensures var rs := Relevant(ts, project, milestone);
            var pct := CalcProgress(ts, project, milestone);
            var n := |rs|;
            var c := CountCompleted(rs);
            && (n > 0 ==> NearestEven(100 * c, n, pct))
            && (n > 0 && (forall t :: t in rs ==> t.status == Completed) ==> pct == 100)
            && ((forall t :: t in rs ==> t.status != Completed) ==> pct == 0)
  {
    var rs := Relevant(ts, project, milestone);
    CountCompletedExtremes(rs);
    var n := |rs|;
    if n > 0 {
      if forall t :: t in rs ==> t.status == Completed {
        assert forall i :: 0 <= i < n ==> rs[i] in rs;
        RoundHalfEvenUnique(100 * n, n, 100);
      }
      if forall t :: t in rs ==> t.status != Completed {
        assert forall i :: 0 <= i < n ==> rs[i] in rs;
        RoundHalfEvenUnique(0, n, 0);
      }
    }
  }

  /** A falsy filter is no filter: `None` and `""` select the same scope, for the project and the milestone separately and for both at once. */
  lemma FalsyFilterIsNoFilter(ts: seq<Task>, project: Option<string>, milestone: Option<string>)
    ensures Relevant(ts, Some(""), milestone) == Relevant(ts, None, milestone)
    ensures Relevant(ts, project, Some("")) == Relevant(ts, project, None)
    ensures CalcProgress(ts, Some(""), milestone) == CalcProgress(ts, None, milestone)
    ensures CalcProgress(ts, project, Some("")) == CalcProgress(ts, project, None)
    ensures CalcProgress(ts, Some(""), Some("")) == CalcProgress(ts, None, None)
    ensures Relevant(ts, None, None) == ts
  {
    RelevantAgrees(ts, Some(""), milestone, None, milestone);
    RelevantAgrees(ts, project, Some(""), project, None);
    RelevantAll(ts, Some(""), Some(""));
    RelevantAll(ts, None, None);
  }

  /** Two scopes that agree on every task of the list filter it alike. */
  lemma {:induction false} RelevantAgrees(ts: seq<Task>, p1: Option<string>, m1: Option<string>, p2: Option<string>, m2: Option<string>)
    requires forall i :: 0 <= i < |ts| ==> (InScope(ts[i], p1, m1) <==> InScope(ts[i], p2, m2))
    ensures Relevant(ts, p1, m1) == Relevant(ts, p2, m2)
    decreases |ts|
  {
    if |ts| > 0 {
      assert forall i :: 0 <= i < |ts[1..]| ==> ts[1..][i] == ts[i + 1];
      RelevantAgrees(ts[1..], p1, m1, p2, m2);
      RelevantFirst(ts, p1, m1);
      RelevantFirst(ts, p2, m2);
    }
  }

  lemma RelevantAll(ts: seq<Task>, project: Option<string>, milestone: Option<string>)
    requires project.None? || project.value == ""
    requires milestone.None? || milestone.value == ""
    ensures Relevant(ts, project, milestone) == ts
  {
    assert forall i :: 0 <= i < |ts| ==> InScope(ts[i], project, milestone);
    RelevantExtremes(ts, project, milestone);
  }

  /** Active tasks (neither Completed nor Canceled) owned by `o`. */
  function ActiveOwnedBy(ts: seq<Task>, o: string): (n: nat)
    ensures n <= |ts|
    decreases |ts|
  {
    if |ts| == 0 then 0
    else (if ts[0].owner == o && ts[0].status.Active() then 1 else 0) + ActiveOwnedBy(ts[1..], o)
  }

  /** A missing owner reads as 0, as `counts.get(o, 0)` does. */
  function Get(counts: map<string, nat>, o: string): nat {
    if o in counts then counts[o] else 0
  }

  /** The loop body of `owner_active_counts`: one more for the owner of an active task. */
  function Tally(counts: map<string, nat>, ts: seq<Task>): (r: map<string, nat>)
    ensures forall o :: o in counts ==> o in r
    decreases |ts|
  {
    if |ts| == 0 then counts
    else
      var t := ts[0];
      var next := if t.status.Active() then counts[t.owner := Get(counts, t.owner) + 1] else counts;
      Tally(next, ts[1..])
  }

  /** Every listed owner starts at 0. */
  function Zeroes(owners: seq<string>): (m: map<string, nat>)
    ensures forall o :: o in m <==> o in owners
    ensures forall o :: o in m ==> m[o] == 0
  {
    map o | o in owners :: 0
  }

  /**
   * `owner_active_counts`: one entry per listed owner and per owner of an
   * active task, each that owner's number of active tasks.
   */
  function OwnerActiveCounts(ts: seq<Task>, owners: seq<string>): (r: map<string, nat>)
    ensures forall o :: o in r <==> o in owners || ActiveOwnedBy(ts, o) > 0
    ensures forall o :: o in r ==> r[o] == ActiveOwnedBy(ts, o)
  {
    var r := Tally(Zeroes(owners), ts);
    TallyCounts(Zeroes(owners), ts);
    assert forall o :: o in r ==> Get(r, o) == r[o];
    r
  }

  lemma {:induction false} TallyCounts(counts: map<string, nat>, ts: seq<Task>)
    ensures var r := Tally(counts, ts);
            && (forall o :: Get(r, o) == Get(counts, o) + ActiveOwnedBy(ts, o))
            && (forall o :: o in r <==> o in counts || ActiveOwnedBy(ts, o) > 0)
    decreases |ts|
  {
    if |ts| > 0 {
      var t := ts[0];
      var next := if t.status.Active() then counts[t.owner := Get(counts, t.owner) + 1] else counts;
      TallyCounts(next, ts[1..]);
    }
  }
}

=== FILE: resolver.dfy ===
/**
 * Dependency resolver: `topological_sort` and `order_tasks_for_owner`.
 *
 * Kahn's algorithm. The ready frontier is a sequence; each step emits its
 * first task of lowest priority rank (a stable sort by rank, then index 0),
 * and appends, in task-map order, every dependent whose dependencies have
 * now all been emitted. The in-degree counter of the source reaches zero
 * exactly when every `DependsOn` entry of a task has been emitted, so the
 * model tests that condition instead of keeping counters.
 */
module Resolver {
  import opened Wrappers
  import opened Tasks

  datatype ResolveError =
    | DanglingDependency(task: TaskId, missing: TaskId)
    | CycleDetected(unresolved: set<TaskId>)

  /** Every dependency of `t` is among `emitted`: its in-degree has dropped to zero. */
  predicate Ready(s: Store, t: TaskId, emitted: seq<TaskId>)
    requires t in s.tasks
  {
    forall d :: d in s.tasks[t].dependsOn ==> d in emitted
  }

  /** Every task of `order` comes after each of its dependencies. */
  ghost predicate Topological(s: Store, order: seq<TaskId>) {
    forall i :: 0 <= i < |order| ==> order[i] in s.tasks && Ready(s, order[i], order[..i])
  }

  /** `order` lists every task exactly once, dependencies first. */
  ghost predicate IsTopologicalOrder(s: Store, order: seq<TaskId>) {
    && Distinct(order)
    && (forall t :: t in order <==> t in s.tasks)
    && Topological(s, order)
  }

  /** Every `DependsOn` entry names a task of the map. */
  ghost predicate NoDangling(s: Store) {
    forall t, d :: t in s.tasks && d in s.tasks[t].dependsOn ==> d in s.tasks
  }

  /** Every task of `u` waits on another task of `u`: nothing in `u` can ever be emitted. */
  ghost predicate SelfBlocking(s: Store, u: set<TaskId>) {
    && (forall t :: t in u ==> t in s.tasks)
    && (forall t {:trigger WaitsWithin(s, t, u)} :: t in u ==> WaitsWithin(s, t, u))
  }

  /** Some dependency of `t` lies in `u`. */
  ghost predicate WaitsWithin(s: Store, t: TaskId, u: set<TaskId>)
    requires t in s.tasks
  {
    exists d :: d in s.tasks[t].dependsOn && d in u
  }

  function Rank(s: Store, t: TaskId): nat
    requires t in s.tasks
  {
    PriorityRank(s.tasks[t].priority)
  }

  /** `c` has the lowest rank among the tasks that are ready and not yet emitted. */
  ghost predicate MinAmongReady(s: Store, emitted: seq<TaskId>, c: TaskId)
    requires c in s.tasks
  {
    forall t {:trigger Ready(s, t, emitted)} :: t in s.tasks && t !in emitted && Ready(s, t, emitted) ==> Rank(s, c) <= Rank(s, t)
  }

  /** Index of the first entry of `ids` that is not a key of `tasks`. */
  function FirstUnknown(ids: seq<TaskId>, tasks: map<TaskId, Task>): (r: Option<nat>)
    ensures r.Some? ==> r.value < |ids| && ids[r.value] !in tasks
    ensures r.Some? ==> forall j :: 0 <= j < r.value ==> ids[j] in tasks
    ensures r.None? ==> forall d :: d in ids ==> d in tasks
  {
    if |ids| == 0 then None
    else if ids[0] !in tasks then Some(0)
    else match FirstUnknown(ids[1..], tasks)
      case None => None
      case Some(i) => Some(i + 1)
  }

  /** The first dangling reference, scanning tasks in map order and each `DependsOn` in order. */
  function FindDangling(keys: seq<TaskId>, tasks: map<TaskId, Task>): (r: Option<ResolveError>)
    requires forall k :: k in keys ==> k in tasks
    ensures r.None? <==> forall t, d :: t in keys && d in tasks[t].dependsOn ==> d in tasks
    ensures r.Some? ==> && r.value.DanglingDependency?
                        && r.value.task in keys
                        && r.value.missing in tasks[r.value.task].dependsOn
                        && r.value.missing !in tasks
  {
    if |keys| == 0 then None
    else match FirstUnknown(tasks[keys[0]].dependsOn, tasks)
      case Some(j) => Some(DanglingDependency(keys[0], tasks[keys[0]].dependsOn[j]))
      case None =>
        var rest := FindDangling(keys[1..], tasks);
        assert forall t :: t in keys <==> t == keys[0] || t in keys[1..];
        rest
  }

  /**
   * The reported reference is the first: every task before the reported one
   * has all its dependencies defined, and in the reported task's `DependsOn`
   * every entry before the missing one names a task.
   */
  lemma {:induction false} FindDanglingIsFirst(keys: seq<TaskId>, tasks: map<TaskId, Task>)
    requires forall k :: k in keys ==> k in tasks
    ensures var r := FindDangling(keys, tasks);
            r.Some? ==> exists i :: 0 <= i < |keys| && keys[i] == r.value.task
                                    && (forall j :: 0 <= j < i ==> DepsDefined(tasks, keys[j]))
                                    && DanglingAt(tasks[keys[i]].dependsOn, tasks, r.value.missing)
    decreases |keys|
  {
    var r := FindDangling(keys, tasks);
    if |keys| > 0 {
      var deps := tasks[keys[0]].dependsOn;
      match FirstUnknown(deps, tasks)
      case Some(j) =>
        assert DanglingAt(deps, tasks, deps[j]);
        assert r.value.task == keys[0];
      case None =>
        FindDanglingIsFirst(keys[1..], tasks);
        if r.Some? {
          assert r == FindDangling(keys[1..], tasks);
          var i :| 0 <= i < |keys[1..]| && keys[1..][i] == r.value.task
                   && (forall j :: 0 <= j < i ==> DepsDefined(tasks, keys[1..][j]))
                   && DanglingAt(tasks[keys[1..][i]].dependsOn, tasks, r.value.missing);
          assert DepsDefined(tasks, keys[0]);
          assert keys[i + 1] == r.value.task;
          assert forall j :: 0 <= j < i + 1 ==> DepsDefined(tasks, keys[j]);
        }
    }
  }

  /** Every `DependsOn` entry of `t` names a task. */
  ghost predicate DepsDefined(tasks: map<TaskId, Task>, t: TaskId)
    requires t in tasks
  {
    forall d :: d in tasks[t].dependsOn ==> d in tasks
  }

  /** `d` is the first entry of `deps` that names no task. */
  ghost predicate DanglingAt(deps: seq<TaskId>, tasks: map<TaskId, Task>, d: TaskId) {
    exists j :: 0 <= j < |deps| && deps[j] == d && d !in tasks && forall k :: 0 <= k < j ==> deps[k] in tasks
  }

  /** Index in the frontier of the task `sorted(..., key=rank)[0]` picks: the first of lowest rank. */
  function FirstMinRank(s: Store, frontier: seq<TaskId>): (i: nat)
    requires |frontier| > 0
    requires forall t :: t in frontier ==> t in s.tasks
    ensures i < |frontier|
    ensures forall j :: 0 <= j < |frontier| ==> Rank(s, frontier[i]) <= Rank(s, frontier[j])
    ensures forall j :: 0 <= j < i ==> Rank(s, frontier[i]) < Rank(s, frontier[j])
  {
    if |frontier| == 1 then 0
    else
      var k := FirstMinRank(s, frontier[1..]);
      if Rank(s, frontier[0]) <= Rank(s, frontier[k + 1]) then 0 else k + 1
  }

  /** The initial frontier: tasks with in-degree zero, in map order. */
  function Seed(keys: seq<TaskId>, tasks: map<TaskId, Task>): (r: seq<TaskId>)
    requires forall k :: k in keys ==> k in tasks
    ensures forall t :: t in r <==> t in keys && |tasks[t].dependsOn| == 0
    ensures Distinct(keys) ==> Distinct(r)
  {
    if |keys| == 0 then []
    else
      var rest := Seed(keys[1..], tasks);
      assert forall t :: t in keys <==> t == keys[0] || t in keys[1..];
      if |tasks[keys[0]].dependsOn| == 0 then [keys[0]] + rest else rest
  }

  /** The seed keeps map order: seeding a concatenation concatenates the seeds. */
  lemma {:induction false} SeedAppend(a: seq<TaskId>, b: seq<TaskId>, tasks: map<TaskId, Task>)
    requires forall k :: k in a + b ==> k in tasks
    ensures Seed(a + b, tasks) == Seed(a, tasks) + Seed(b, tasks)
    decreases |a|
  {
    if |a| > 0 {
      assert (a + b)[1..] == a[1..] + b;
      SeedAppend(a[1..], b, tasks);
    } else {
      assert a + b == b;
    }
  }

  /** Dependents of `c` whose in-degree reaches zero once `c` is emitted, in map order. */
  function NewlyReady(s: Store, keys: seq<TaskId>, c: TaskId, emitted: seq<TaskId>): (r: seq<TaskId>)
    requires forall k :: k in keys ==> k in s.tasks
    ensures forall t :: t in r <==> t in keys && c in s.tasks[t].dependsOn && Ready(s, t, emitted)
    ensures Distinct(keys) ==> Distinct(r)
  {
    if |keys| == 0 then []
    else
      var rest := NewlyReady(s, keys[1..], c, emitted);
      assert forall t :: t in keys <==> t == keys[0] || t in keys[1..];
      if c in s.tasks[keys[0]].dependsOn && Ready(s, keys[0], emitted) then [keys[0]] + rest else rest
  }

  /** Newly ready tasks join the queue in map order: the list for a concatenation concatenates the lists. */
  lemma {:induction false} NewlyReadyAppend(s: Store, a: seq<TaskId>, b: seq<TaskId>, c: TaskId, emitted: seq<TaskId>)
    requires forall k :: k in a + b ==> k in s.tasks
    ensures NewlyReady(s, a + b, c, emitted) == NewlyReady(s, a, c, emitted) + NewlyReady(s, b, c, emitted)
    decreases |a|
  {
    if |a| > 0 {
      assert (a + b)[0] == a[0] && (a + b)[1..] == a[1..] + b;
      NewlyReadyAppend(s, a[1..], b, c, emitted);
      var tail := NewlyReady(s, a[1..], c, emitted);
      var rest := NewlyReady(s, b, c, emitted);
      if c in s.tasks[a[0]].dependsOn && Ready(s, a[0], emitted) {
        assert [a[0]] + (tail + rest) == ([a[0]] + tail) + rest;
      }
    } else {
      assert a + b == b;
    }
  }

  /** What holds at the head of every iteration of the `while queue` loop. */
  ghost predicate KahnInv(s: Store, frontier: seq<TaskId>, emitted: seq<TaskId>) {
    && s.Valid()
    && Distinct(emitted)
    && Distinct(frontier)
    && Topological(s, emitted)
    && (forall t :: t in frontier ==> t in s.tasks && t !in emitted && Ready(s, t, emitted))
    && (forall t :: t in s.tasks && t !in emitted && Ready(s, t, emitted) ==> t in frontier)
  }

  function Unemitted(s: Store, emitted: seq<TaskId>): set<TaskId> {
    s.tasks.Keys - set t | t in emitted
  }

  /** `queue.remove(current)`: the frontier without its `i`-th entry. */
  function RemoveAt(f: seq<TaskId>, i: nat): (r: seq<TaskId>)
    requires i < |f|
    requires Distinct(f)
    ensures |r| == |f| - 1
    ensures forall t :: t in r <==> t in f && t != f[i]
    ensures Distinct(r)
  {
    var r := f[..i] + f[i + 1..];
    assert forall k :: 0 <= k < |r| ==> r[k] == (if k < i then f[k] else f[k + 1]);
    assert forall k :: 0 <= k < |f| && k != i ==> f[k] == (if k < i then r[k] else r[k - 1]);
    r
  }

  /** A task emitted before `c` was ready never lists `c` as a dependency. */
  lemma EmittedDoNotWaitOn(s: Store, emitted: seq<TaskId>, c: TaskId)
    requires Topological(s, emitted)
    requires c !in emitted
    ensures forall t :: t in emitted ==> c !in s.tasks[t].dependsOn
  {
    forall t | t in emitted
      ensures c !in s.tasks[t].dependsOn
    {
      var k :| 0 <= k < |emitted| && emitted[k] == t;
      assert Ready(s, emitted[k], emitted[..k]);
    }
  }

  lemma StepKeepsTopological(s: Store, emitted: seq<TaskId>, c: TaskId)
    requires Topological(s, emitted)
    requires c in s.tasks && Ready(s, c, emitted)
    ensures Topological(s, emitted + [c])
  {
    var e' := emitted + [c];
    forall k | 0 <= k < |e'|
      ensures e'[k] in s.tasks && Ready(s, e'[k], e'[..k])
    {
      if k < |emitted| {
        assert e'[k] == emitted[k] && e'[..k] == emitted[..k];
      } else {
        assert e'[..k] == emitted;
      }
    }
  }

  lemma StepFrontierSound(s: Store, frontier: seq<TaskId>, emitted: seq<TaskId>, i: nat)
    requires KahnInv(s, frontier, emitted)
    requires i < |frontier|
    ensures var c := frontier[i];
            var e' := emitted + [c];
            var rest := RemoveAt(frontier, i);
            var added := NewlyReady(s, s.keys, c, e');
            && (forall t :: t in rest ==> t in s.tasks && t !in e' && Ready(s, t, e'))
            && (forall t :: t in added ==> t in s.tasks && t !in e' && t !in rest && Ready(s, t, e'))
  {
    var c := frontier[i];
    var e' := emitted + [c];
    var rest := RemoveAt(frontier, i);
    var added := NewlyReady(s, s.keys, c, e');
    EmittedDoNotWaitOn(s, emitted, c);
    forall t | t in added
      ensures t in s.tasks && t !in e' && t !in rest && Ready(s, t, e')
    {
      assert c in s.tasks[t].dependsOn;
      assert !Ready(s, t, emitted);
    }
  }

  lemma StepFrontierComplete(s: Store, frontier: seq<TaskId>, emitted: seq<TaskId>, i: nat)
    requires KahnInv(s, frontier, emitted)
    requires i < |frontier|
    ensures var c := frontier[i];
            var e' := emitted + [c];
            var f' := RemoveAt(frontier, i) + NewlyReady(s, s.keys, c, e');
            forall t :: t in s.tasks && t !in e' && Ready(s, t, e') ==> t in f'
  {
    var c := frontier[i];
    var e' := emitted + [c];
    var rest := RemoveAt(frontier, i);
    var added := NewlyReady(s, s.keys, c, e');
    forall t | t in s.tasks && t !in e' && Ready(s, t, e')
      ensures t in rest + added
    {
      if c in s.tasks[t].dependsOn {
        assert t in added;
      } else {
        assert Ready(s, t, emitted);
        assert t in rest;
      }
    }
  }

  lemma AppendDistinct(a: seq<TaskId>, b: seq<TaskId>)
    requires Distinct(a) && Distinct(b)
    requires forall t :: t in b ==> t !in a
    ensures Distinct(a + b)
  {
    var ab := a + b;
    forall x, y | 0 <= x < y < |ab|
      ensures ab[x] != ab[y]
    {
      if y < |a| {
        assert ab[x] == a[x] && ab[y] == a[y];
      } else if x >= |a| {
        assert ab[x] == b[x - |a|] && ab[y] == b[y - |a|];
      } else {
        assert ab[x] == a[x] && ab[y] == b[y - |a|];
        assert ab[y] in b;
      }
    }
  }

  lemma StepPreservesInv(s: Store, frontier: seq<TaskId>, emitted: seq<TaskId>, i: nat)
    requires KahnInv(s, frontier, emitted)
    requires i < |frontier|
    ensures KahnInv(s, RemoveAt(frontier, i) + NewlyReady(s, s.keys, frontier[i], emitted + [frontier[i]]),
                    emitted + [frontier[i]])
  {
    var c := frontier[i];
    var e' := emitted + [c];
    var rest := RemoveAt(frontier, i);
    var added := NewlyReady(s, s.keys, c, e');
    StepFrontierSound(s, frontier, emitted, i);
    StepFrontierComplete(s, frontier, emitted, i);
    AppendDistinct(rest, added);
    AppendDistinct(emitted, [c]);
    StepKeepsTopological(s, emitted, c);
    forall t | t in rest + added
      ensures t in s.tasks && t !in e' && Ready(s, t, e')
    {
      assert t in rest || t in added;
    }
  }

  /** The emitted task has the lowest rank among the ready tasks, because the frontier is exactly those. */
  lemma ChosenIsMinAmongReady(s: Store, frontier: seq<TaskId>, emitted: seq<TaskId>, i: nat)
    requires KahnInv(s, frontier, emitted)
    requires i < |frontier|
    requires forall j :: 0 <= j < |frontier| ==> Rank(s, frontier[i]) <= Rank(s, frontier[j])
    ensures MinAmongReady(s, emitted, frontier[i])
  {
    forall t | t in s.tasks && t !in emitted && Ready(s, t, emitted)
      ensures Rank(s, frontier[i]) <= Rank(s, t)
    {
      var j :| 0 <= j < |frontier| && frontier[j] == t;
    }
  }

  /** Extends the loop's promises about the rest of the run by the step that emitted `c`. */
  lemma PrependStep(s: Store, emitted: seq<TaskId>, c: TaskId, r: seq<TaskId>)
    requires c in s.tasks && MinAmongReady(s, emitted, c)
    requires |emitted| + 1 <= |r| && r[..|emitted| + 1] == emitted + [c]
    requires forall k :: |emitted| + 1 <= k < |r| ==> r[k] in s.tasks && MinAmongReady(s, r[..k], r[k])
    ensures r[..|emitted|] == emitted
    ensures forall k :: |emitted| <= k < |r| ==> r[k] in s.tasks && MinAmongReady(s, r[..k], r[k])
  {
    assert r[..|emitted|] == r[..|emitted| + 1][..|emitted|];
    assert r[|emitted|] == (emitted + [c])[|emitted|];
  }

  /** The `while queue` loop, from a frontier and the ids emitted so far. */
  function Kahn(s: Store, frontier: seq<TaskId>, emitted: seq<TaskId>): (r: seq<TaskId>)
    requires KahnInv(s, frontier, emitted)
    ensures |emitted| <= |r| && r[..|emitted|] == emitted
    ensures |frontier| == 0 <==> r == emitted
    ensures |frontier| > 0 ==> |emitted| < |r| && r[|emitted|] == frontier[FirstMinRank(s, frontier)]
    decreases Unemitted(s, emitted)
  {
    if |frontier| == 0 then emitted
    else
      var i := FirstMinRank(s, frontier);
      var c := frontier[i];
      StepPreservesInv(s, frontier, emitted, i);
      assert c in Unemitted(s, emitted) && c !in Unemitted(s, emitted + [c]);
      var r := Kahn(s, RemoveAt(frontier, i) + NewlyReady(s, s.keys, c, emitted + [c]), emitted + [c]);
      assert r[..|emitted|] == r[..|emitted| + 1][..|emitted|];
      assert r[|emitted|] == r[..|emitted| + 1][|emitted|];
      r
  }

  /** The loop only appends: the ids emitted so far stay a prefix, and the run keeps the loop invariant. */
  lemma {:induction false} KahnExtends(s: Store, frontier: seq<TaskId>, emitted: seq<TaskId>)
    requires KahnInv(s, frontier, emitted)
    ensures var r := Kahn(s, frontier, emitted);
            && |emitted| <= |r| && r[..|emitted|] == emitted
            && Distinct(r) && Topological(s, r)
    decreases Unemitted(s, emitted)
  {
    if |frontier| > 0 {
      var i := FirstMinRank(s, frontier);
      var c := frontier[i];
      var e' := emitted + [c];
      StepPreservesInv(s, frontier, emitted, i);
      assert c in Unemitted(s, emitted) && c !in Unemitted(s, e');
      KahnExtends(s, RemoveAt(frontier, i) + NewlyReady(s, s.keys, c, e'), e');
      var r := Kahn(s, frontier, emitted);
      assert r[..|emitted|] == r[..|e'|][..|emitted|];
    }
  }

  /** When the loop stops, no task is left whose dependencies have all been emitted. */
  lemma {:induction false} KahnExhausts(s: Store, frontier: seq<TaskId>, emitted: seq<TaskId>)
    requires KahnInv(s, frontier, emitted)
    ensures var r := Kahn(s, frontier, emitted);
            forall t :: t in s.tasks && t !in r ==> !Ready(s, t, r)
    decreases Unemitted(s, emitted)
  {
    if |frontier| > 0 {
      var i := FirstMinRank(s, frontier);
      var c := frontier[i];
      var e' := emitted + [c];
      StepPreservesInv(s, frontier, emitted, i);
      assert c in Unemitted(s, emitted) && c !in Unemitted(s, e');
      var f' := RemoveAt(frontier, i) + NewlyReady(s, s.keys, c, e');
      assert Kahn(s, frontier, emitted) == Kahn(s, f', e');
      KahnExhausts(s, f', e');
    }
  }

  /** Every task the loop emits has the lowest rank among the tasks ready at that step. */
  lemma {:induction false} KahnGreedy(s: Store, frontier: seq<TaskId>, emitted: seq<TaskId>)
    requires KahnInv(s, frontier, emitted)
    ensures var r := Kahn(s, frontier, emitted);
            forall k :: |emitted| <= k < |r| ==> r[k] in s.tasks && MinAmongReady(s, r[..k], r[k])
    decreases Unemitted(s, emitted)
  {
    if |frontier| > 0 {
      var i := FirstMinRank(s, frontier);
      var c := frontier[i];
      var e' := emitted + [c];
      StepPreservesInv(s, frontier, emitted, i);
      ChosenIsMinAmongReady(s, frontier, emitted, i);
      assert c in Unemitted(s, emitted) && c !in Unemitted(s, e');
      var f' := RemoveAt(frontier, i) + NewlyReady(s, s.keys, c, e');
      KahnGreedy(s, f', e');
      KahnExtends(s, f', e');
      PrependStep(s, emitted, c, Kahn(s, f', e'));
    }
  }

  lemma {:induction false} DistinctCard(q: seq<TaskId>)
    requires Distinct(q)
    ensures |set t | t in q| == |q|
  {
    if |q| > 0 {
      DistinctCard(q[1..]);
      assert (set t | t in q) == {q[0]} + (set t | t in q[1..]);
      assert q[0] !in (set t | t in q[1..]);
    }
  }

  lemma {:induction false} SubsetCard(a: set<TaskId>, b: set<TaskId>)
    requires a <= b
    ensures |a| <= |b|
    decreases a
  {
    if a != {} {
      var x :| x in a;
      SubsetCard(a - {x}, b - {x});
    }
  }

  /** A distinct sequence of keys as long as the map covers the whole map. */
  lemma CoversAll(s: Store, order: seq<TaskId>)
    requires s.Valid() && Distinct(order)
    requires forall t :: t in order ==> t in s.tasks
    ensures |order| == |s.keys| <==> forall t :: t in s.tasks ==> t in order
  {
    var emitted := set t | t in order;
    DistinctCard(order);
    DistinctCard(s.keys);
    assert (set t | t in s.keys) == s.tasks.Keys;
    if exists x :: x in s.tasks && x !in order {
      var x :| x in s.tasks && x !in order;
      SubsetCard(emitted, s.tasks.Keys - {x});
    } else {
      assert emitted == s.tasks.Keys;
    }
  }

  /** With nothing emitted, a task is ready exactly when it has no dependencies. */
  lemma NoneEmittedYet(ds: seq<TaskId>)
    ensures (forall d :: d in ds ==> d in []) <==> |ds| == 0
  {
    if |ds| > 0 {
      assert ds[0] in ds;
    }
  }

  lemma SeedInv(s: Store)
    requires s.Valid()
    ensures KahnInv(s, Seed(s.keys, s.tasks), [])
  {
    forall t | t in s.tasks
      ensures Ready(s, t, []) <==> |s.tasks[t].dependsOn| == 0
    {
      NoneEmittedYet(s.tasks[t].dependsOn);
    }
  }

  lemma TopologicalPrefix(s: Store, order: seq<TaskId>, n: nat)
    requires Topological(s, order) && n <= |order|
    ensures Topological(s, order[..n])
  {
    var front := order[..n];
    forall k | 0 <= k < n
      ensures front[k] in s.tasks && Ready(s, front[k], front[..k])
    {
      assert front[k] == order[k] && front[..k] == order[..k];
      assert Ready(s, order[k], order[..k]);
    }
  }

  /** A self-blocking set never meets a dependency-respecting sequence: its first member there would wait on an earlier one. */
  lemma {:induction false} SelfBlockingAvoidsOrder(s: Store, v: set<TaskId>, order: seq<TaskId>)
    requires Topological(s, order) && SelfBlocking(s, v)
    ensures forall t :: t in order ==> t !in v
  {
    if |order| > 0 {
      var front := order[..|order| - 1];
      var x := order[|order| - 1];
      TopologicalPrefix(s, order, |order| - 1);
      SelfBlockingAvoidsOrder(s, v, front);
      assert Ready(s, order[|order| - 1], order[..|order| - 1]);
      assert forall t :: t in order ==> t in front || t == x;
      assert forall d :: d in s.tasks[x].dependsOn ==> d !in v;
      assert x in v ==> WaitsWithin(s, x, v);
    }
  }

  /** Without dangling references, the tasks a stopped loop left out all wait on one another. */
  lemma LeftoverIsSelfBlocking(s: Store, order: seq<TaskId>)
    requires NoDangling(s)
    requires forall t :: t in s.tasks && t !in order ==> !Ready(s, t, order)
    ensures SelfBlocking(s, s.tasks.Keys - set t | t in order)
  {
    var u := s.tasks.Keys - set t | t in order;
    forall t | t in u
      ensures t in s.tasks && WaitsWithin(s, t, u)
    {
      assert !Ready(s, t, order);
      var d :| d in s.tasks[t].dependsOn && d !in order;
      assert d in u;
    }
  }

  /** The ids the loop emits from the initial frontier. */
  function Emitted(s: Store): (r: seq<TaskId>)
    requires s.Valid()
    ensures Distinct(r) && Topological(s, r)
    ensures forall t :: t in r ==> t in s.tasks
  {
    SeedInv(s);
    KahnExtends(s, Seed(s.keys, s.tasks), []);
    Kahn(s, Seed(s.keys, s.tasks), [])
  }

  /** Each emitted task had the lowest rank among the tasks ready when it was chosen. */
  lemma EmittedGreedy(s: Store)
    requires s.Valid()
    ensures var r := Emitted(s);
            forall k :: 0 <= k < |r| ==> MinAmongReady(s, r[..k], r[k])
  {
    SeedInv(s);
    KahnGreedy(s, Seed(s.keys, s.tasks), []);
    assert Emitted(s) == Kahn(s, Seed(s.keys, s.tasks), []);
  }

  /** The tasks the loop never emitted. */
  function Leftover(s: Store): (u: set<TaskId>)
    requires s.Valid()
    ensures forall t :: t in u <==> t in s.tasks && t !in Emitted(s)
  {
    s.tasks.Keys - set t | t in Emitted(s)
  }

  /** Facts about a finished run: the length test decides whether anything was left over. */
  lemma RunOutcome(s: Store)
    requires s.Valid()
    ensures |Emitted(s)| == |s.keys| <==> Leftover(s) == {}
    ensures NoDangling(s) ==> SelfBlocking(s, Leftover(s))
  {
    var order := Emitted(s);
    CoversAll(s, order);
    if NoDangling(s) {
      SeedInv(s);
      KahnExhausts(s, Seed(s.keys, s.tasks), []);
      LeftoverIsSelfBlocking(s, order);
    }
  }

  /**
   * `topological_sort`: a dangling reference fails before anything is ordered;
   * otherwise Kahn's loop runs, and a short result fails naming every task it left out.
   */
  function TopologicalSort(s: Store): (r: Result<seq<TaskId>, ResolveError>)
    requires s.Valid()
    ensures (r.Failure? && r.error.DanglingDependency?) <==> !NoDangling(s)
    ensures r.Failure? && r.error.DanglingDependency? ==>
              && r.error.task in s.tasks
              && r.error.missing in s.tasks[r.error.task].dependsOn
              && r.error.missing !in s.tasks
    ensures r.Success? ==> IsTopologicalOrder(s, r.value)
    ensures r.Success? ==> forall k :: 0 <= k < |r.value| ==> MinAmongReady(s, r.value[..k], r.value[k])
    ensures r.Failure? && r.error.CycleDetected? ==>
              r.error.unresolved != {} && SelfBlocking(s, r.error.unresolved)
    ensures r.Failure? && r.error.CycleDetected? ==>
              forall t :: t in r.error.unresolved <==> t in s.tasks && t !in Emitted(s)
  {
    var dangling := FindDangling(s.keys, s.tasks);
    if dangling.Some? then Failure(dangling.value)
    else
      RunOutcome(s);
      EmittedGreedy(s);
      var order := Emitted(s);
      if |order| != |s.keys| then Failure(CycleDetected(Leftover(s)))
      else Success(order)
  }

  /** The cycle error names the largest set of tasks that wait on each other: every self-blocking set lies inside it. */
  lemma CycleNamesAllStuckTasks(s: Store, v: set<TaskId>)
    requires s.Valid()
    requires TopologicalSort(s).Failure? && TopologicalSort(s).error.CycleDetected?
    requires SelfBlocking(s, v)
    ensures v <= TopologicalSort(s).error.unresolved
  {
    SelfBlockingAvoidsOrder(s, v, Emitted(s));
  }

  /** Without dangling references, the resolver succeeds exactly when some dependency-respecting order of all tasks exists. */
  lemma SortSucceedsIffOrderable(s: Store)
    requires s.Valid() && NoDangling(s)
    ensures TopologicalSort(s).Success? <==> exists order :: IsTopologicalOrder(s, order)
  {
    var r := TopologicalSort(s);
    if exists order :: IsTopologicalOrder(s, order) {
      var order :| IsTopologicalOrder(s, order);
      if r.Failure? {
        SelfBlockingAvoidsOrder(s, r.error.unresolved, order);
      }
    }
  }

  /** Two tasks that depend on each other make the resolver fail naming both. */
  lemma MutualDependencyIsCycle(s: Store, a: TaskId, b: TaskId)
    requires s.Valid() && a != b
    requires s.tasks.Keys == {a, b}
    requires s.tasks[a].dependsOn == [b] && s.tasks[b].dependsOn == [a]
    ensures TopologicalSort(s) == Failure(CycleDetected({a, b}))
  {
    var both := {a, b};
    assert s.tasks[a].dependsOn[0] == b && s.tasks[b].dependsOn[0] == a;
    assert WaitsWithin(s, a, both) && WaitsWithin(s, b, both);
    assert SelfBlocking(s, both);
    assert NoDangling(s);
    var r := TopologicalSort(s);
    if r.Success? {
      SelfBlockingAvoidsOrder(s, both, r.value);
    }
    assert r.Failure? && r.error.CycleDetected?;
    CycleNamesAllStuckTasks(s, both);
    assert r.error.unresolved <= both;
    assert both <= r.error.unresolved;
    assert r.error.unresolved == both;
    assert r == Failure(CycleDetected(r.error.unresolved));
  }

  /** Tasks without dependencies are all emitted. */
  lemma IndependentTasksAllEmitted(s: Store)
    requires s.Valid()
    requires forall t :: t in s.tasks ==> s.tasks[t].dependsOn == []
    ensures |Emitted(s)| == |s.keys|
  {
    assert NoDangling(s);
    RunOutcome(s);
    forall t | t in s.tasks
      ensures !WaitsWithin(s, t, Leftover(s))
    {
    }
  }

  /** Without dangling references, a run that emits every task is the sort's result. */
  lemma CompleteRunIsResult(s: Store)
    requires s.Valid() && NoDangling(s) && |Emitted(s)| == |s.keys|
    ensures TopologicalSort(s) == Success(Emitted(s))
  {
  }

  /** The first task emitted is the seed's first task of lowest rank. */
  lemma EmittedStartsWithSeedPick(s: Store)
    requires s.Valid() && |Seed(s.keys, s.tasks)| > 0
    ensures var f := Seed(s.keys, s.tasks);
            |Emitted(s)| > 0 && Emitted(s)[0] == f[FirstMinRank(s, f)]
  {
    SeedInv(s);
  }

  /**
   * Ties leave in map order: of two independent tasks the one of better rank
   * comes first, and on equal rank the one loaded first.
   */
  lemma TiesKeepMapOrder(s: Store, a: TaskId, b: TaskId)
    requires s.Valid() && s.keys == [a, b]
    requires s.tasks[a].dependsOn == [] && s.tasks[b].dependsOn == []
    ensures TopologicalSort(s) == Success(if Rank(s, b) < Rank(s, a) then [b, a] else [a, b])
  {
    TwoIndependentEmitted(s, a, b);
    assert NoDangling(s);
    CompleteRunIsResult(s);
  }

  /** The run over two tasks without dependencies emits the better-ranked one first, `a` on a tie. */
  lemma TwoIndependentEmitted(s: Store, a: TaskId, b: TaskId)
    requires s.Valid() && s.keys == [a, b]
    requires s.tasks[a].dependsOn == [] && s.tasks[b].dependsOn == []
    ensures Emitted(s) == if Rank(s, b) < Rank(s, a) then [b, a] else [a, b]
  {
    SeedOfTwo(s, a, b);
    EmittedStartsWithSeedPick(s);
    IndependentTasksAllEmitted(s);
    PairFromFirst(s, a, b, Emitted(s));
  }

  /** Both tasks are ready from the start, in map order. */
  lemma SeedOfTwo(s: Store, a: TaskId, b: TaskId)
    requires s.Valid() && s.keys == [a, b]
    requires s.tasks[a].dependsOn == [] && s.tasks[b].dependsOn == []
    ensures Seed(s.keys, s.tasks) == [a, b]
  {
    assert s.keys[1..] == [b] && [b][1..] == [];
    assert Seed([b], s.tasks) == [b] + Seed([], s.tasks);
  }

  /** A run of two distinct tasks that starts with the pick from `[a, b]` ends with the other one. */
  lemma PairFromFirst(s: Store, a: TaskId, b: TaskId, r: seq<TaskId>)
    requires s.Valid() && s.keys == [a, b]
    requires Distinct(r) && |r| == 2 && forall t :: t in r ==> t in s.tasks
    requires r[0] == [a, b][FirstMinRank(s, [a, b])]
    ensures r == if Rank(s, b) < Rank(s, a) then [b, a] else [a, b]
  {
    assert r[1] in s.tasks && r[1] != r[0];
    if Rank(s, b) < Rank(s, a) {
      assert r == [b, a];
    } else {
      assert r == [a, b];
    }
  }

  /** `order_tasks_for_owner`: the ids of `order` whose task belongs to `owner`, in the same order. */
  function OwnerIds(s: Store, order: seq<TaskId>, owner: string): (r: seq<TaskId>)
    requires forall t :: t in order ==> t in s.tasks
    ensures forall t :: t in r <==> t in order && s.tasks[t].owner == owner
    ensures |r| <= |order|
  {
    if |order| == 0 then []
    else
      var last := order[|order| - 1];
      var front := OwnerIds(s, order[..|order| - 1], owner);
      assert forall t :: t in order <==> t in order[..|order| - 1] || t == last;
      if s.tasks[last].owner == owner then front + [last] else front
  }

  /** The filter is stable: filtering a concatenation concatenates the filtered parts, so the owner's ids keep their relative order. */
  lemma {:induction false} OwnerIdsAppend(s: Store, a: seq<TaskId>, b: seq<TaskId>, owner: string)
    requires forall t :: t in a + b ==> t in s.tasks
    ensures OwnerIds(s, a + b, owner) == OwnerIds(s, a, owner) + OwnerIds(s, b, owner)
    decreases |b|
  {
    if |b| > 0 {
      var b' := b[..|b| - 1];
      assert (a + b)[..|a + b| - 1] == a + b';
      assert (a + b)[|a + b| - 1] == b[|b| - 1];
      OwnerIdsAppend(s, a, b', owner);
    } else {
      assert a + b == a;
    }
  }

  /** The owner's tasks, in resolver order. */
  function OrderForOwner(s: Store, order: seq<TaskId>, owner: string): (ts: seq<Task>)
    requires forall t :: t in order ==> t in s.tasks
    ensures forall x :: x in ts ==> x.owner == owner
    ensures forall t :: t in order && s.tasks[t].owner == owner ==> s.tasks[t] in ts
    ensures var ids := OwnerIds(s, order, owner);
            |ts| == |ids| && forall i :: 0 <= i < |ts| ==> ts[i] == s.tasks[ids[i]]
  {
    var ids := OwnerIds(s, order, owner);
    var r := TasksAt(ids, s.tasks);
    assert forall x :: x in r ==> exists i :: 0 <= i < |ids| && x == s.tasks[ids[i]];
    assert forall t :: t in ids ==> s.tasks[t] in r;
    r
  }

  /** Every task of `q` comes after each of its dependencies that `owner` also holds. */
  ghost predicate OwnDependenciesFirst(s: Store, q: seq<TaskId>, owner: string) {
    forall i :: 0 <= i < |q| ==> q[i] in s.tasks && OwnReady(s, q[i], q[..i], owner)
  }

  ghost predicate OwnReady(s: Store, t: TaskId, before: seq<TaskId>, owner: string)
    requires t in s.tasks
  {
    forall d :: d in s.tasks[t].dependsOn && d in s.tasks && s.tasks[d].owner == owner ==> d in before
  }

  /** Filtering to one owner is stable: each of the owner's tasks still comes after every dependency the owner also holds. */
  lemma {:induction false} OwnerOrderRespectsDependencies(s: Store, order: seq<TaskId>, owner: string)
    requires Topological(s, order)
    ensures OwnDependenciesFirst(s, OwnerIds(s, order, owner), owner)
  {
    if |order| > 0 {
      var front := order[..|order| - 1];
      var last := order[|order| - 1];
      TopologicalPrefix(s, order, |order| - 1);
      OwnerOrderRespectsDependencies(s, front, owner);
      var q := OwnerIds(s, order, owner);
      var q' := OwnerIds(s, front, owner);
      forall i | 0 <= i < |q|
        ensures q[i] in s.tasks && OwnReady(s, q[i], q[..i], owner)
      {
        if i < |q'| {
          assert q[i] == q'[i] && q[..i] == q'[..i];
          assert OwnReady(s, q'[i], q'[..i], owner);
        } else {
          assert q[i] == last && q[..i] == q';
          assert Ready(s, order[|order| - 1], order[..|order| - 1]);
        }
      }
    }
  }
}

=== FILE: tasks.dfy ===
/**
 * The task record and the task map of the scheduling engine.
 *
 * A task map is a Python dict keyed by TaskID; its iteration order (the
 * order rows were loaded) is observable in the resolver and in the search
 * for the owner's active task, so the model keeps it as `keys`.
 */
module Tasks {
  import opened Wrappers

  type TaskId = string

  /** The five board columns, plus any other label a loaded row may carry. */
  datatype StatusName =
    | Pending
    | InProgress
    | Paused
    | Completed
    | Canceled
    | Unrecognised(name: string)
  {
    /** One of the five statuses `update_task_status` accepts. */
    predicate Known() {
      !Unrecognised?
    }

    /** Not finished: neither Completed nor Canceled (an unrecognised label counts as active). */
    predicate Active() {
      this != Completed && this != Canceled
    }
  }

  /**
   * A status as the Status column's text determines it: an unrecognised
   * label is never one of the five names, so two statuses are equal exactly
   * when their texts are, as in the source's string comparisons.
   */
  predicate Canonical(st: StatusName) {
    st.Unrecognised? ==> st.name !in {"Pending", "In Progress", "Paused", "Completed", "Canceled"}
  }

  type Status = st: StatusName | Canonical(st) witness Pending

  /** The text stored in the Status column. */
  function Label(st: Status): string {
    match st
    case Pending => "Pending"
    case InProgress => "In Progress"
    case Paused => "Paused"
    case Completed => "Completed"
    case Canceled => "Canceled"
    case Unrecognised(l) => l
  }

  /** Reads a Status column value. */
  function ParseStatus(text: string): (st: Status)
    ensures st.Known() <==> text in {"Pending", "In Progress", "Paused", "Completed", "Canceled"}
    ensures Label(st) == text
  {
    if text == "Pending" then Pending
    else if text == "In Progress" then InProgress
    else if text == "Paused" then Paused
    else if text == "Completed" then Completed
    else if text == "Canceled" then Canceled
    else Unrecognised(text)
  }

  /** Writing a status and reading it back gives the same status. */
  lemma ParseLabelRoundTrip(st: Status)
    ensures ParseStatus(Label(st)) == st
  {
  }

  /** Statuses compare as their texts do. */
  lemma LabelInjective(a: Status, b: Status)
    ensures Label(a) == Label(b) <==> a == b
  {
    ParseLabelRoundTrip(a);
    ParseLabelRoundTrip(b);
  }

  /** Priority rank of PRIORITY_ORDER with the resolver's default of 99; lower sorts first. */
  function PriorityRank(priority: string): (rank: nat)
    ensures priority == "High" <==> rank == 1
    ensures priority == "Medium" <==> rank == 2
    ensures priority == "Low" <==> rank == 3
    ensures rank == 99 <==> priority !in {"High", "Medium", "Low"}
  {
    if priority == "High" then 1
    else if priority == "Medium" then 2
    else if priority == "Low" then 3
    else 99
  }

  /** The stored start of an active session: integer seconds, or text that does not parse as a timestamp. */
  datatype Instant = At(seconds: int) | Malformed(text: string)

  datatype Task = Task(
    id: TaskId,
    project: string,
    milestone: string,
    title: string,
    owner: string,
    dependsOn: seq<TaskId>,
    estimatedHours: nat,
    priority: string,
    status: Status,
    actualSeconds: nat,
    inProgressStart: Option<Instant>,
    lastComment: Option<string>,
    commentLog: Option<string>,
    lastUpdated: Option<string>)

  ghost predicate Distinct<T>(s: seq<T>) {
    forall i, j :: 0 <= i < j < |s| ==> s[i] != s[j]
  }

  /** The task map: `tasks` indexed by TaskID, `keys` its iteration order. */
  datatype Store = Store(keys: seq<TaskId>, tasks: map<TaskId, Task>) {
    ghost predicate Valid() {
      && Distinct(keys)
      && (forall k :: k in keys <==> k in tasks)
      && (forall k :: k in tasks ==> tasks[k].id == k)
    }
  }

  /** The tasks stored under `keys`, in that order. */
  function TasksAt(keys: seq<TaskId>, tasks: map<TaskId, Task>): (ts: seq<Task>)
    requires forall k :: k in keys ==> k in tasks
    ensures |ts| == |keys|
    ensures forall i :: 0 <= i < |ts| ==> ts[i] == tasks[keys[i]]
  {
    if |keys| == 0 then []
    else [tasks[keys[0]]] + TasksAt(keys[1..], tasks)
  }

  /** The tasks in iteration order (`tasks_all.values()`). */
  function Values(s: Store): seq<Task>
    requires forall k :: k in s.keys ==> k in s.tasks
  {
    TasksAt(s.keys, s.tasks)
  }
}

=== FILE: wrappers.dfy ===
/** Failure-compatible wrappers shared by the scheduling engine. */
module Wrappers {

  /** An optional value: the model's stand-in for Python's `None`. */
  datatype Option<+T> = None | Some(value: T)

  /** Either a computed value or the error the source would raise. */
  datatype Result<+R, +E> = Success(value: R) | Failure(error: E)
}
